=== FILE: README.md ===
# Sora2 video backend: job lifecycle model

A Dafny model of the job-lifecycle core of a small FastAPI backend. The backend
forwards a text prompt to the OpenAI Videos API, stores a local job record
(`video_jobs`) with at most one asset row (`video_assets`), and periodically
polls the remote API to bring pending jobs up to date.

The model covers:

- **Schemas**: the create request's enums, its defaults, and its prompt
  checks (`min_length=4` and the two-word validator).
- **OpenAIClient**: how the client shapes requests. This covers base-URL
  trimming, the three URLs, headers, the create body and the stream query
  parameters. It also covers how a reply becomes data or an `httpx`
  exception.
- **Sizes**: the official size set and `aspect_ratio_to_resolution`.
- **Database**: the two records, the table constraints checked at commit
  (primary key, NOT NULL, UNIQUE `sora_job_id`, asset ownership), and
  `session_scope`. A scope commits on normal exit. On an exception it rolls
  back and re-raises.
- **Poller**: one reconciliation tick. The pending filter runs first. Then the
  per-job update is folded over the pending jobs, in listing order, inside one
  transaction scope. `_sync_assets` is part of the per-job update.
- **Api**: `create_video`, which persists a job only after the remote call
  succeeds, plus `get_video` and `get_video_media`.
- **Py**: the Python semantics the code relies on. This means truthiness in
  `x or y`, the `str.isspace` whitespace set, `str.split()`, `str.strip()`
  and `str.rstrip("/")`.

Everything outside the process is an input value:
- the outcome of each remote call (`Call`: data, `HttpStatusError`, `RequestError`, or a 2xx body that is not a JSON object);
- every `datetime.utcnow()` reading (`Timestamp`);
- every `uuid4()` (a fresh-id parameter).

The table is a map from job id to job, and a job holds its asset rows.

Behaviour of the code worth knowing:

- Statuses are plain strings. The backend knows `queued`, `processing`,
  `completed` and `failed`. It has no `cancelled` status and does not map
  remote statuses onto its own.
- A job whose remote status is any other string, `"in_progress"` for
  example, is stored as is and is never polled again
  (`Poller.UnknownStatusStopsPolling`).
- The loop is sequential. It writes every successfully polled job, whether
  or not anything changed.
- `error_message` is set exactly when the status is `"failed"` for every job
  a poll writes. Creation does not establish this: a job the API reports as
  failed on creation has no message and is never polled
  (`Api.CreatedFailedJobHasNoMessage`).
- A payload can set `status` to `null`. The ORM writes that NULL in the
  UPDATE, the NOT NULL constraint fails, and the whole tick rolls back.
- `error` and `result` can be `null` or some other non-object value. When the
  branch that calls `.get` on it runs, the call raises and the tick rolls
  back.
- At insert time, the ORM leaves `None` attributes out. So a `null` remote
  status on creation yields the column default `"queued"`, and a `null` id
  fails NOT NULL.

## Model

| member | source | states |
|---|---|---|
| Py.OrStr | backend/main.py:145 | Python `a or b`: `a` when it is a non-empty string, else `b`; the result is truthy iff either operand is |
| Py.OrInt | backend/main.py:122 | Python `a or b` on integers: `a` when non-zero, else `b` |
| Py.RStripChar | backend/openai_client.py:25 | the result is a prefix of the input, everything removed is `/`, and it does not end in `/` |
| Py.IsSpace | backend/main.py:238 | the characters Python's `str.isspace()` accepts, which `strip()` and `split()` treat as whitespace |
| Py.Strip | backend/main.py:238 | the result is a contiguous slice of the input with only whitespace removed on either side, and it neither starts nor ends with whitespace |
| Py.StripIdempotent | backend/main.py:238 | stripping twice equals stripping once |
| Py.StripIgnoresPadding | backend/main.py:238 | whitespace padding around a trimmed string is removed exactly |
| Py.Split | backend/schemas.py:42 | every element of `str.split()` is a non-empty run without whitespace |
| Py.SplitEmptyIffBlank | backend/schemas.py:42 | the split is empty iff the string is all whitespace |
| Py.SplitTwoWords | backend/schemas.py:42 | `len(s.split()) >= 2` iff `s` has a non-space, then a space, then a non-space |
| Py.SplitSkipsSpace | backend/schemas.py:42 | a leading whitespace character does not change the split |
| Py.SplitJoin | backend/schemas.py:42 | splitting words joined by single spaces gives exactly those words back |
| Database.Valid | backend/database.py:36-54 | the constraints the table keeps: each row under its primary key, `sora_job_id` unique, every asset's `job_id` the job holding it |
| Database.StatusEnumExact | backend/database.py:24-30 | the status enum has exactly the four values queued, processing, completed, failed; parsing each value gives its member back |
| Database.NewJob | backend/database.py:36-45 | a new row exists iff `sora_job_id` is given; the status defaults to `"queued"`; `error_message` is null and the row has no assets |
| Database.SessionScope | backend/database.py:84-92 | normal exit commits the body's table if the constraints hold; any exception (or a failed constraint) rolls back to the table before the scope and re-raises; the stored table always satisfies the constraints |
| Database.Insert | backend/database.py:36-39 | an insert commits iff the id is new, `sora_job_id` is unused and its assets point at it; otherwise `IntegrityError` and nothing changes |
| Database.InsertKeepsConstraints | backend/database.py:36-54 | adding a row under a new key keeps the constraints iff its `sora_job_id` is unique and its assets point at it |
| Database.DeleteJob | backend/database.py:47 | deleting a job removes exactly that key, keeps every other row as it was and keeps the constraints |
| Database.DeleteCascades | backend/database.py:47-54 | after a delete no asset belongs to the deleted job, and every asset of every other job is still there |
| Schemas.SecondsOf | backend/schemas.py:14-17 | `SecondsEnum(n)` exists iff n is 4, 8 or 12, and it has value n |
| Schemas.SizeOf | backend/schemas.py:20-25 | `SizeEnum(s)` exists iff s is one of the five presets, and it has value s |
| Schemas.EnumValuesRoundTrip | backend/schemas.py:14-25 | looking up an enum member's own value gives that member back |
| Schemas.PromptMustHaveWords | backend/schemas.py:40-44 | accepts iff the prompt has at least two whitespace-separated words, and returns it unchanged |
| Schemas.ValidatePrompt | backend/schemas.py:29-44 | the prompt is accepted iff given, at least 4 characters and two words; a shorter prompt is rejected as too short |
| Schemas.ValidateSeconds | backend/schemas.py:30-33 | missing gives 8; a given value is accepted iff it is 4, 8 or 12; null is rejected |
| Schemas.ValidateSize | backend/schemas.py:34-37 | missing gives `"1920x1080"`; a given value is accepted iff it is a preset; null is rejected |
| Schemas.ValidateUserId | backend/schemas.py:38 | missing gives `"demo-user"`, null stays `None`, a given value is kept |
| Schemas.Validate | backend/schemas.py:28-44 | the request validates iff prompt, seconds and size each do; an accepted request carries the unchanged prompt (which satisfies both checks) and the validated seconds, size and user id; a rejection lists at least one field, and lists a too-short prompt iff the prompt is shorter than 4 |
| Schemas.DefaultsApply | backend/schemas.py:30-38 | a body with only a valid prompt gets seconds 8, size 1920x1080 and user `demo-user` |
| OpenAIClient.NewClient | backend/openai_client.py:16-28 | the stored base URL is the given one with its trailing `/` run removed; the other settings are stored as given |
| OpenAIClient.DefaultClient | backend/openai_client.py:16-28 | with only a key, the client stores the base `https://api.openai.com/v1` unchanged, the model `sora-1.0` and the beta header `video-generation=2` |
| OpenAIClient.NewClientIdempotent | backend/openai_client.py:25 | building a client from an already stored base URL stores the same client |
| OpenAIClient.Headers | backend/openai_client.py:79-87 | `Authorization: Bearer <key>` always; `Content-Type` iff `include_json`; `OpenAI-Beta` iff the beta header is non-empty; no other header |
| OpenAIClient.UrlLayout | backend/openai_client.py:33-63 | retrieve URL = create URL + `/` + id, content URL = retrieve URL + `/content`, and the id parses back out of the retrieve URL |
| OpenAIClient.RetrieveUrlInjective | backend/openai_client.py:46 | two retrieve URLs of one client are equal only for the same job id |
| OpenAIClient.CreateBody | backend/openai_client.py:34 | the body's keys are the payload's plus `model`; payload values win, including over `model` |
| OpenAIClient.CreateRequest | backend/openai_client.py:33-37 | a POST to `base + "/videos"` with JSON headers and the create body |
| OpenAIClient.RetrieveRequest | backend/openai_client.py:46-48 | a GET to `base + "/videos/" + id` with JSON headers and no body |
| OpenAIClient.StreamParams | backend/openai_client.py:64-74 | `variant`/`token` appear iff truthy and carry the given values; with neither, params are `None` |
| OpenAIClient.StreamRequest | backend/openai_client.py:63-74 | a GET to the content URL with `_headers(include_json=False)` (bearer authorisation, the beta header when configured, no `Content-Type`) and the stream params |
| OpenAIClient.Receive | backend/openai_client.py:37-51 | a transport failure raises `RequestError`; a non-2xx raises `HTTPStatusError` with its code and text before any data; data is returned iff 2xx with a JSON object |
| OpenAIClient.ReceiveStream | backend/openai_client.py:75-77 | the stream is handed over iff the status is 2xx; otherwise `HTTPStatusError` or `RequestError` |
| Sizes.AspectRatioToResolution | backend/main.py:235-254 | `None` for `None`; otherwise `Some` iff the trimmed input is an official size or a preset name, and then a member of `OFFICIAL_SIZES` (the trimmed size itself, or the preset's size) |
| Sizes.OfficialSizeIsFixed | backend/main.py:238-240 | an official size maps to itself |
| Sizes.AspectRatioToResolutionIdempotent | backend/main.py:235-254 | normalising a normalised value changes nothing |
| Sizes.PaddingIgnored | backend/main.py:238 | whitespace around a known size or preset name does not change the result |
| Sizes.OfficialIffSizeEnum | backend/main.py:226-232 | a string is an official size iff it is a `SizeEnum` value |
| Sizes.SizeEnumIsOfficial | backend/main.py:163-165 | every `SizeEnum` value is official and normalises to itself, so a validated request's size is sent unchanged |
| Poller.PayloadAssets | backend/main.py:137 | `result.assets` when truthy, else `assets` when truthy, else empty; a non-object `result` raises |
| Poller.CopyInto | backend/main.py:144-150 | the asset mirrors the payload entry (`preview_url` prefers a truthy `stream_url`; `file_size` is null iff absent) and keeps its id, job and creation time |
| Poller.SyncAssets | backend/main.py:135-150 | an empty payload list changes nothing; otherwise only the first entry is used, the first asset is updated in place or created with the fresh id, later assets are untouched, and ownership is kept |
| Poller.SyncNeverAddsSecondAsset | backend/main.py:136-143 | a job with at most one asset still has at most one after a sync |
| Poller.FailureMessage | backend/main.py:129 | `error.message` when truthy, else `"Generation failed"`, never empty; a non-object `error` raises |
| Poller.ApplyPayload | backend/main.py:119-131 | a successful poll raises iff the status is null, or completed with a non-object `result`, or failed with a non-object `error`; otherwise it writes the new status, a failed job gets `error.message` or `"Generation failed"` (as `FailureMessage` says), and a completed job gets exactly the assets `_sync_assets` produces |
| Poller.PollStep | backend/main.py:104-132 | an HTTP error fails the job with the body as message; a network error skips it; a successful poll raises iff the status is null, or completed with a non-object `result`, or failed with a non-object `error`; a missing status keeps the old one; seconds/size change only to truthy values; a failed poll stores `error.message` or `"Generation failed"`; `error_message` is set iff failed; assets change only on completion, and then exactly as `_sync_assets` says; identity columns never change |
| Poller.CompletedPollStoresFirstEntry | backend/main.py:124-127 | a completed poll with a non-empty asset list leaves the first entry as the job's first asset |
| Poller.UnknownStatusStopsPolling | backend/main.py:99-131 | a remote status other than queued, processing, completed and failed (`"in_progress"`, say) is stored as is and takes the job out of the pending set |
| Poller.PendingIds | backend/main.py:99-103 | exactly the listed jobs whose status is `queued` or `processing`, without repeats; empty iff none is pending |
| Poller.PendingIdsKeepOrder | backend/main.py:99-103 | the pending ids keep the listing's relative order: any two of them occur in the listing in the order they are returned |
| Poller.IsPending | backend/main.py:101 | the query's filter: a status is selected iff it is `queued` or `processing` |
| Poller.WriteKeepsValid | backend/main.py:132 | writing one job's step back keeps the constraints and every other row |
| Poller.PollAll | backend/main.py:104-132 | the loop keeps the constraints and the key set, touches only listed jobs, and asks the API about each listed job's remote id in order |
| Poller.PollAllRaisesIff | backend/main.py:104-117 | the loop finishes without an exception iff no job's step raises |
| Poller.PollAllIndependent | backend/main.py:104-132 | when the loop finishes, each listed job holds exactly its own step's result |
| Poller.Tick | backend/main.py:97-132 | only pending jobs are touched; an escaped exception leaves the table unchanged; otherwise each pending job gets its own update; one status call per pending job, in order |
| Poller.IdleTick | backend/main.py:99-104 | with nothing pending there are no remote calls and no writes |
| Poller.NetworkErrorIsolated | backend/main.py:115-117 | a network error leaves its job as it was while every other pending job is updated |
| Poller.TickKeepsErrorInvariant | backend/main.py:124-131 | after a committed tick, a job written from a reply has `error_message` iff its status is failed |
| Poller.SettledJobStaysSettled | backend/main.py:99-103 | a job a tick leaves outside queued/processing is untouched by the next tick |
| Api.SizeToSend | backend/main.py:163-165 | the size sent upstream is the request's own size value |
| Api.CreatePayload | backend/main.py:159-165 | the payload has exactly prompt, seconds and size, carrying the request's values |
| Api.SentRequest | backend/main.py:159-167 | the request is a POST to `/videos` with JSON headers and a body of exactly model, prompt, seconds and size, carrying the client's model and the request's values |
| Api.CreateVideo | backend/main.py:159-186 | the request above is sent whatever the reply; an HTTP error propagates its code and text, a network error gives 502; every other failure (a non-object body, a missing or null id, a duplicate remote id) is a 500 `Internal Server Error`; a failure persists nothing; success iff the reply has an id that is unused and the fresh id is new, and it inserts exactly one job with that remote id, the remote status or `"queued"`, the request's prompt/seconds/size, `demo-user` for a falsy user, no error and no assets |
| Api.GetVideo | backend/main.py:195-200 | the stored job, or 404 `Job not found` |
| Api.GetVideoMedia | backend/main.py:203-220 | the first asset's fields; 404 for an unknown job and 404 for a job without assets |
| Api.CreatedJobIsPolled | backend/main.py:179 | a new job is pending iff the remote status was absent, null, queued or processing |
| Api.CreatedFailedJobHasNoMessage | backend/main.py:174-182 | a job reported failed at creation is stored with no message and is never polled |
| Api.MediaAfterCompletedTick | backend/main.py:124-150 | after a committed tick that completed a job with assets, the media endpoint serves the first payload entry |

## Left out

- The background loop is left out: the startup task, `asyncio.sleep`, the poll interval and the client-construction guards (backend/main.py:30-94). These are wall-clock scheduling and configuration, so a single tick is modelled instead.
- HTTP routing, CORS, static files and pydantic `from_orm` serialisation are left out. They are marshalling.
- `list_videos` is left out: its newest-first ordering is done by the database's `ORDER BY`.
- Networking and streaming are left out. Each remote call's outcome is an input, and the streamed body is an opaque byte sequence. `stream_video_content` is not called from backend/main.py, so only its request shape and its status gate are modelled.
- Logging and the client `timeout` are left out. Neither affects stored state.
- `session.close()` is left out: it has no observable effect on the table.
- Payload values of a JSON type other than the one the code expects are not modelled. Examples are a numeric `status`, a string `file_size` going through `int()`, or a non-dict asset entry. Float values are not modelled either.
- Pydantic's coercions between strings and numbers are not modelled. Only values of the declared type, missing keys and `null` are.
- Column length limits (`String(32)` and the like) are not modelled.
- Asset-row `uuid4()` collisions are not modelled: the fresh asset id is taken as new. A job-id collision is modelled, as an `IntegrityError`.
- Clock readings are shared. A new asset's `created_at` gets the same reading as its job's `updated_at`, and a new job's `created_at` and `updated_at` are the same reading. In the code these are separate `utcnow()` calls a moment apart. The model keeps one timestamp per step, because no rule of the backend compares these columns.
- Poller.Tick: when a step raises, `polled` stops at that job. For a NULL status, the code only fails at the next flush, so later jobs may still be asked about before the rollback. The table outcome (full rollback) is the same either way.

=== FILE: api.dfy ===
/** The endpoints' logic: creating a job (remote call first, then the insert),
    and reading a job or its media back. */
module Api {
  import opened Wrappers
  import Py
  import opened Database
  import opened Schemas
  import opened OpenAIClient
  import Sizes
  import Poller

  /** An `HTTPException` returned to the caller. */
  datatype ApiError = ApiError(code: int, detail: string)

  /** What an unhandled exception becomes. */
  const InternalServerError := ApiError(500, "Internal Server Error")

  /** The outcome of `create_video`: the request sent to the Videos API, the
      table afterwards, and the response. */
  datatype CreateOutcome = CreateOutcome(sent: Request, store: Store, response: Result<Job, ApiError>)

  /** The size sent upstream: `aspect_ratio_to_resolution(size) or size`. */
  function SizeToSend(size: Size): (r: string)
    ensures r == size.Value()
  {
    var normalized := Sizes.AspectRatioToResolution(Some(size.Value()));
    Sizes.SizeEnumIsOfficial(size);
    if Py.TruthyStr(normalized) then normalized.value else size.Value()
  }

  /** The payload `create_video` builds from a validated request. */
  function CreatePayload(req: CreateVideoRequest): (p: map<string, Json>)
    ensures p.Keys == {"prompt", "seconds", "size"}
    ensures p["prompt"] == JStr(req.prompt)
    ensures p["seconds"] == JInt(req.seconds.Value())
    ensures p["size"] == JStr(req.size.Value())
  {
    map["prompt" := JStr(req.prompt), "seconds" := JInt(req.seconds.Value()), "size" := JStr(SizeToSend(req.size))]
  }

  /** The request `create_video` sends: POST {base}/videos with JSON headers
      and a body of the configured model and the request's fields. */
  function SentRequest(c: Client, req: CreateVideoRequest): (r: Request)
    ensures r.verb == POST && r.url == c.apiBase + "/videos"
    ensures r.headers == Headers(c, true) && r.params.None?
    ensures r.body.Some? && r.body.value.Keys == {"model", "prompt", "seconds", "size"}
    ensures r.body.Some? ==> r.body.value["model"] == JStr(c.model)
    ensures r.body.Some? ==> r.body.value["prompt"] == JStr(req.prompt)
    ensures r.body.Some? ==> r.body.value["seconds"] == JInt(req.seconds.Value())
    ensures r.body.Some? ==> r.body.value["size"] == JStr(req.size.Value())
  {
    CreateRequest(c, CreatePayload(req))
  }

  /** `create_video`: call the Videos API, and only if that succeeds insert a
      job that records the remote id. */
  function CreateVideo(s: Store, c: Client, req: CreateVideoRequest, reply: Call<VideoPayload>,
                       freshId: string, now: Timestamp): (r: CreateOutcome)
    requires Valid(s)
    // the request `SentRequest` describes goes out whatever the reply turns out to be
    ensures r.sent.verb == POST && r.sent.url == c.apiBase + "/videos"
    ensures r.sent.headers == Headers(c, true) && r.sent.params.None?
    ensures r.sent.body.Some? && r.sent.body.value.Keys == {"model", "prompt", "seconds", "size"}
    ensures r.sent.body.Some? ==> r.sent.body.value["model"] == JStr(c.model)
    ensures r.sent.body.Some? ==> r.sent.body.value["prompt"] == JStr(req.prompt)
    ensures r.sent.body.Some? ==> r.sent.body.value["seconds"] == JInt(req.seconds.Value())
    ensures r.sent.body.Some? ==> r.sent.body.value["size"] == JStr(req.size.Value())
    ensures Valid(r.store)
    // a failure persists nothing
    ensures r.response.Err? ==> r.store == s
    ensures reply.HttpStatusError? ==> r.response == Err(ApiError(reply.code, reply.text))
    ensures reply.RequestError? ==> r.response == Err(ApiError(502, reply.reason))
    // anything else that goes wrong escapes the handler and becomes a 500
    ensures r.response.Err? && !reply.HttpStatusError? && !reply.RequestError? ==>
              r.response == Err(InternalServerError)
    ensures r.response.Ok? <==>
              && reply.Done? && reply.value.id.Given? && freshId !in s.jobs
              && (forall k :: k in s.jobs ==> s.jobs[k].soraJobId != reply.value.id.value)
    // success inserts exactly the new job
    ensures r.response.Ok? ==> r.store.jobs == s.jobs[freshId := r.response.value]
    ensures r.response.Ok? ==> (
              var job := r.response.value;
              && job.id == freshId
              && job.soraJobId == reply.value.id.value
              && job.status == (if reply.value.status.Given? then reply.value.status.value else Queued.Value())
              && job.prompt == req.prompt
              && job.userId == (if Py.TruthyStr(req.userId) then req.userId.value else DefaultUserId)
              && job.seconds == Some(req.seconds.Value())
              && job.size == Some(req.size.Value())
              && job.errorMessage.None? && job.assets == []
              && job.createdAt == now && job.updatedAt == now)
  {
    var sent := SentRequest(c, req);
    match reply
    case HttpStatusError(code, text) => CreateOutcome(sent, s, Err(ApiError(code, text)))
    case RequestError(why) => CreateOutcome(sent, s, Err(ApiError(502, why)))
    case NotAnObject => CreateOutcome(sent, s, Err(InternalServerError))
    case Done(p) =>
      if p.id.Missing? then CreateOutcome(sent, s, Err(InternalServerError))  // response["id"]
      else
        var userId := if Py.TruthyStr(req.userId) then req.userId.value else DefaultUserId;
        // `.get("status", "queued")`; a `null` falls back to the column default
        var status := if p.status.Missing? then Some(Queued.Value()) else p.status.Get();
        match NewJob(freshId, userId, req.prompt, p.id.Get(), status,
                     Some(req.seconds.Value()), Some(SizeToSend(req.size)), now)
        case Err(_) => CreateOutcome(sent, s, Err(InternalServerError))
        case Ok(job) =>
          var scope := Insert(s, job);
          if scope.raised.Some? then CreateOutcome(sent, s, Err(InternalServerError))
          else CreateOutcome(sent, scope.store, Ok(job))
  }

  /** `get_video`: the job, or 404. */
  function GetVideo(s: Store, id: string): (r: Result<Job, ApiError>)
    ensures r.Ok? <==> id in s.jobs
    ensures r.Ok? ==> r.value == s.jobs[id]
    ensures r.Err? ==> r.error == ApiError(404, "Job not found")
  {
    match Get(s, id)
    case Some(job) => Ok(job)
    case None => Err(ApiError(404, "Job not found"))
  }

  /** The fields `get_video_media` returns for an asset. */
  datatype AssetView = AssetView(
    downloadUrl: Option<string>,
    previewUrl: Option<string>,
    thumbnailUrl: Option<string>,
    durationSeconds: Option<int>,
    resolution: Option<string>,
    fileSize: Option<int>)

  function ViewOf(a: Asset): AssetView {
    AssetView(a.downloadUrl, a.previewUrl, a.thumbnailUrl, a.durationSeconds, a.resolution, a.fileSize)
  }

  /** `get_video_media`: the job's first asset; 404 for an unknown job and for
      a job without assets. */
  function GetVideoMedia(s: Store, id: string): (r: Result<AssetView, ApiError>)
    ensures r.Ok? <==> id in s.jobs && |s.jobs[id].assets| > 0
    ensures r.Ok? ==> r.value == ViewOf(s.jobs[id].assets[0])
    ensures id !in s.jobs ==> r == Err(ApiError(404, "Job not found"))
    ensures id in s.jobs && |s.jobs[id].assets| == 0 ==>
              r == Err(ApiError(404, "No assets available for this job yet"))
  {
    match Get(s, id)
    case None => Err(ApiError(404, "Job not found"))
    case Some(job) =>
      if |job.assets| == 0 then Err(ApiError(404, "No assets available for this job yet"))
      else Ok(ViewOf(job.assets[0]))
  }

  /** A freshly created job is picked up by the next tick exactly when the
      Videos API reported it queued or processing, or reported no status. */
  lemma CreatedJobIsPolled(s: Store, c: Client, req: CreateVideoRequest, reply: Call<VideoPayload>,
                           freshId: string, now: Timestamp)
    requires Valid(s)
    ensures var r := CreateVideo(s, c, req, reply, freshId, now);
            r.response.Ok? ==>
              (Poller.IsPending(r.response.value.status) <==>
                 !reply.value.status.Given? || reply.value.status.value in {"queued", "processing"})
  {
  }

  /** A job the Videos API reports as failed already at creation is stored
      with status `"failed"` and no `error_message`, and is never polled, so
      it keeps that pair: the invariant the poller maintains is not
      established by creation. */
  lemma CreatedFailedJobHasNoMessage(s: Store, c: Client, req: CreateVideoRequest, p: VideoPayload,
                                     freshId: string, now: Timestamp)
    requires Valid(s)
    requires p.id.Given? && p.status == Given("failed")
    requires freshId !in s.jobs && forall k :: k in s.jobs ==> s.jobs[k].soraJobId != p.id.value
    ensures var r := CreateVideo(s, c, req, Done(p), freshId, now);
            r.response.Ok? && r.response.value.status == Failed.Value()
            && r.response.value.errorMessage.None?
            && !Poller.ErrorMatchesStatus(r.response.value)
            && !Poller.IsPending(r.response.value.status)
  {
  }

  /** After a tick that commits, a job whose reply completed it with a
      non-empty asset list serves the first entry of that list as its media. */
  lemma MediaAfterCompletedTick(s: Store, order: seq<string>, inputs: seq<Poller.PollInput>, i: int)
    requires Valid(s) && Poller.IsListing(s, order)
    requires |inputs| == |Poller.PendingIds(s, order)|
    requires 0 <= i < |inputs|
    requires inputs[i].reply.Done?
    requires Poller.NextStatus(s.jobs[Poller.PendingIds(s, order)[i]], inputs[i].reply.value) == Some(Completed.Value())
    requires !inputs[i].reply.value.result.Null?
    requires |Poller.PayloadAssets(inputs[i].reply.value).value| > 0
    ensures Poller.Tick(s, order, inputs).raised.None? ==>
            var k := Poller.PendingIds(s, order)[i];
            var media := GetVideoMedia(Poller.Tick(s, order, inputs).store, k);
            var e := Poller.PayloadAssets(inputs[i].reply.value).value[0];
            && media.Ok?
            && media.value.downloadUrl == e.downloadUrl
            && media.value.previewUrl == Py.OrStr(e.streamUrl, e.previewUrl)
            && media.value.fileSize == e.fileSize
  {
    var k := Poller.PendingIds(s, order)[i];
    Poller.CompletedPollStoresFirstEntry(s.jobs[k], inputs[i]);
  }
}

=== FILE: database.dfy ===
/** The persisted records (`video_jobs`, `video_assets`), the table constraints the
    database enforces on them, and the commit-or-rollback transaction scope. */
module Database {
  import opened Wrappers

  /** `datetime.utcnow()` is an oracle: each call is an input value of this type. */
  type Timestamp = int

  /** The status values the backend itself knows. The `status` column is a plain
      string, so a job can also hold any other string copied from the remote API. */
  datatype VideoStatus = Queued | Processing | Completed | Failed {
    function Value(): string {
      match this
      case Queued => "queued"
      case Processing => "processing"
      case Completed => "completed"
      case Failed => "failed"
    }
  }

  /** The enum member whose value is `s`, if any. */
  function ParseStatus(s: string): (r: Option<VideoStatus>)
    ensures r.Some? ==> r.value.Value() == s
  {
    if s == "queued" then Some(Queued)
    else if s == "processing" then Some(Processing)
    else if s == "completed" then Some(Completed)
    else if s == "failed" then Some(Failed)
    else None
  }

  /** The enum has exactly four members, with four different values, and
      `ParseStatus` recognises exactly those four strings. */
  lemma StatusEnumExact(st: VideoStatus, s: string)
    ensures ParseStatus(st.Value()) == Some(st)
    ensures ParseStatus(s).None? <==> s !in {"queued", "processing", "completed", "failed"}
  {
  }

  /** A row of `video_assets`. Nullable columns are `Option`s. */
  datatype Asset = Asset(
    id: string,
    jobId: string,
    downloadUrl: Option<string>,
    previewUrl: Option<string>,
    thumbnailUrl: Option<string>,
    durationSeconds: Option<int>,
    resolution: Option<string>,
    fileSize: Option<int>,
    createdAt: Timestamp)

  /** A row of `video_jobs` with its assets (the `assets` relationship).
      `user_id`, `prompt`, `sora_job_id` and `status` are NOT NULL; the
      nullable columns are `Option`s. */
  datatype Job = Job(
    id: string,
    userId: string,
    prompt: string,
    soraJobId: string,
    status: string,
    errorMessage: Option<string>,
    seconds: Option<int>,
    size: Option<string>,
    createdAt: Timestamp,
    updatedAt: Timestamp,
    assets: seq<Asset>)

  /** Builds the row an INSERT of `VideoJob(...)` stores. The ORM leaves a
      `None` attribute out of the INSERT, so the column default applies: a
      missing or `None` status becomes `"queued"`. A `None` `sora_job_id` has
      no default and violates NOT NULL. */
  function NewJob(id: string, userId: string, prompt: string, soraJobId: Option<string>,
                  status: Option<string>, seconds: Option<int>, size: Option<string>,
                  now: Timestamp): (r: Result<Job, Fault>)
    ensures r.Ok? <==> soraJobId.Some?
    ensures r.Ok? ==> (
              && r.value.id == id && r.value.userId == userId && r.value.prompt == prompt
              && r.value.soraJobId == soraJobId.value
              && r.value.status == status.GetOr(Queued.Value())
              && r.value.errorMessage.None? && r.value.assets == []
              && r.value.seconds == seconds && r.value.size == size
              && r.value.createdAt == now && r.value.updatedAt == now)
  {
    match soraJobId
    case None => Err(IntegrityError)
    case Some(sid) =>
      Ok(Job(id, userId, prompt, sid, status.GetOr(Queued.Value()), None, seconds, size, now, now, []))
  }

  /** The exceptions that can escape a transaction scope. */
  datatype Fault =
    | IntegrityError   // a NOT NULL, UNIQUE or PRIMARY KEY constraint fails
    | AttributeError   // `.get` on `None` or another non-object value
    | KeyError         // `payload["id"]` on a payload without `id`
    | DecodeError      // a 2xx body that is not a JSON object

  /** The table. Keyed by the primary key `id`. */
  datatype Store = Store(jobs: map<string, Job>)

  /** The constraints the database enforces at commit. */
  predicate Valid(s: Store) {
    // the map key is the row's primary key
    && (forall k :: k in s.jobs ==> s.jobs[k].id == k)
    // `sora_job_id` is UNIQUE
    && (forall k1, k2 :: k1 in s.jobs && k2 in s.jobs && s.jobs[k1].soraJobId == s.jobs[k2].soraJobId ==> k1 == k2)
    // every asset's `job_id` is the job that holds it
    && (forall k, i :: k in s.jobs && 0 <= i < |s.jobs[k].assets| ==> s.jobs[k].assets[i].jobId == k)
  }

  /** What a transaction scope leaves behind: the stored table, and the
      exception it re-raises, if any. */
  datatype Scope = Scope(store: Store, raised: Option<Fault>)

  /** `session_scope`: run a body that ends with the table `after` or raises
      `fault`. Normal exit commits; a constraint that fails at commit raises
      `IntegrityError`. On any exception the session rolls back, so the table
      is as it was before the scope, and the exception is re-raised. */
  function SessionScope(before: Store, after: Store, fault: Option<Fault>): (r: Scope)
    requires Valid(before)
    ensures Valid(r.store)
    ensures r.raised.None? <==> fault.None? && Valid(after)
    ensures r.raised.None? ==> r.store == after
    ensures r.raised.Some? ==> r.store == before
    ensures fault.Some? ==> r.raised == fault
  {
    if fault.Some? then Scope(before, fault)
    else if !Valid(after) then Scope(before, Some(IntegrityError))
    else Scope(after, None)
  }

  /** `db.add(job); db.commit()`: the primary key and the UNIQUE `sora_job_id`
      are checked, and the table changes only when the insert commits. */
  function Insert(s: Store, job: Job): (r: Scope)
    requires Valid(s)
    ensures Valid(r.store)
    ensures r.raised.None? <==>
              job.id !in s.jobs
              && (forall k :: k in s.jobs ==> s.jobs[k].soraJobId != job.soraJobId)
              && (forall i :: 0 <= i < |job.assets| ==> job.assets[i].jobId == job.id)
    ensures r.raised.None? ==> r.store.jobs == s.jobs[job.id := job]
    ensures r.raised.Some? ==> r.store == s && r.raised == Some(IntegrityError)
  {
    if job.id in s.jobs then Scope(s, Some(IntegrityError))
    else
      var after := Store(s.jobs[job.id := job]);
      InsertKeepsConstraints(s, job);
      SessionScope(s, after, None)
  }

  /** Adding a row under a new key keeps the constraints exactly when its
      `sora_job_id` is new and its assets point at it. */
  lemma InsertKeepsConstraints(s: Store, job: Job)
    requires Valid(s) && job.id !in s.jobs
    ensures Valid(Store(s.jobs[job.id := job])) <==>
              && (forall k :: k in s.jobs ==> s.jobs[k].soraJobId != job.soraJobId)
              && (forall i :: 0 <= i < |job.assets| ==> job.assets[i].jobId == job.id)
  {
    var after := Store(s.jobs[job.id := job]);
    if Valid(after) {
      forall k | k in s.jobs
        ensures s.jobs[k].soraJobId != job.soraJobId
      {
        assert after.jobs[k] == s.jobs[k] && after.jobs[job.id] == job;
      }
      forall i | 0 <= i < |job.assets|
        ensures job.assets[i].jobId == job.id
      {
        assert after.jobs[job.id].assets[i] == job.assets[i];
      }
    }
  }

  /** Looks a job up by its primary key. */
  function Get(s: Store, id: string): (r: Option<Job>)
    ensures r.Some? <==> id in s.jobs
    ensures r.Some? ==> r.value == s.jobs[id]
  {
    if id in s.jobs then Some(s.jobs[id]) else None
  }

  /** Every asset id held by the table, with the job that holds it. */
  function AssetOwners(s: Store): set<(string, string)> {
    set k, i | k in s.jobs && 0 <= i < |s.jobs[k].assets| :: (s.jobs[k].assets[i].id, k)
  }

  /** Deleting a job (`cascade="all, delete-orphan"`, `ondelete="CASCADE"`)
      deletes its assets with it and touches no other row. */
  function DeleteJob(s: Store, id: string): (r: Store)
    requires Valid(s)
    ensures Valid(r)
    ensures r.jobs.Keys == s.jobs.Keys - {id}
    ensures forall k :: k in r.jobs ==> r.jobs[k] == s.jobs[k]
  {
    Store(map k | k in s.jobs && k != id :: s.jobs[k])
  }

  /** After a delete, no asset is owned by the deleted job, and every asset of
      every other job is still there. */
  lemma DeleteCascades(s: Store, id: string)
    requires Valid(s)
    ensures forall p :: p in AssetOwners(DeleteJob(s, id)) ==> p.1 != id
    ensures forall p :: p in AssetOwners(s) && p.1 != id ==> p in AssetOwners(DeleteJob(s, id))
  {
    var r := DeleteJob(s, id);
    forall p | p in AssetOwners(s) && p.1 != id
      ensures p in AssetOwners(r)
    {
      var k, i :| k in s.jobs && 0 <= i < |s.jobs[k].assets| && p == (s.jobs[k].assets[i].id, k);
      assert k in r.jobs && r.jobs[k] == s.jobs[k];
    }
  }
}

=== FILE: openai_client.dfy ===
/** `OpenAIVideosClient`: how requests to the Videos API are shaped, and how a
    reply becomes a value or an exception. The transport itself is an input:
    a `Reply` says what came back over the wire. */
module OpenAIClient {
  import opened Wrappers
  import Py

  const DefaultApiBase := "https://api.openai.com/v1"
  const DefaultModel := "sora-1.0"
  const DefaultBetaHeader := "video-generation=2"

  /** A configured client. `timeout` has no effect on the model and is left out. */
  datatype Client = Client(apiKey: string, apiBase: string, model: string, betaHeader: string)

  /** `__init__`: the base URL is stored without any trailing `/`. */
  function NewClient(apiKey: string, apiBase: string, model: string, betaHeader: string): (c: Client)
    ensures c.apiKey == apiKey && c.model == model && c.betaHeader == betaHeader
    ensures |c.apiBase| <= |apiBase| && c.apiBase == apiBase[..|c.apiBase|]
    ensures forall i :: |c.apiBase| <= i < |apiBase| ==> apiBase[i] == '/'
    ensures c.apiBase == "" || c.apiBase[|c.apiBase| - 1] != '/'
  {
    Client(apiKey, Py.RStripChar(apiBase, '/'), model, betaHeader)
  }

  /** `__init__` with only the key: the default base URL, model and beta
      header are stored as they are, so every request carries the beta header. */
  function DefaultClient(apiKey: string): (c: Client)
    ensures c.apiKey == apiKey
    ensures c.apiBase == "https://api.openai.com/v1"
    ensures c.model == "sora-1.0" && c.betaHeader == "video-generation=2"
  {
    NewClient(apiKey, DefaultApiBase, DefaultModel, DefaultBetaHeader)
  }

  /** Building a client from an already trimmed base stores that base unchanged. */
  lemma NewClientIdempotent(apiKey: string, apiBase: string, model: string, betaHeader: string)
    ensures var c := NewClient(apiKey, apiBase, model, betaHeader);
            NewClient(apiKey, c.apiBase, model, betaHeader) == c
  {
    var b := NewClient(apiKey, apiBase, model, betaHeader).apiBase;
    assert Py.SuffixRun(b, x => x == '/') == 0;
  }

  // ---------------------------------------------------------------------------
  // Request shaping
  // ---------------------------------------------------------------------------

  /** The JSON values that request bodies carry. */
  datatype Json = JStr(s: string) | JInt(n: int)

  datatype Verb = GET | POST

  /** An outgoing HTTP request. */
  datatype Request = Request(
    verb: Verb,
    url: string,
    headers: map<string, string>,
    params: Option<map<string, string>>,
    body: Option<map<string, Json>>)

  /** `_headers`: bearer authorisation always, the JSON content type on request,
      and the beta header when one is configured. */
  function Headers(c: Client, includeJson: bool): (h: map<string, string>)
    ensures "Authorization" in h && h["Authorization"] == "Bearer " + c.apiKey
    ensures "Content-Type" in h <==> includeJson
    ensures includeJson ==> h["Content-Type"] == "application/json"
    ensures "OpenAI-Beta" in h <==> c.betaHeader != ""
    ensures c.betaHeader != "" ==> h["OpenAI-Beta"] == c.betaHeader
    ensures h.Keys <= {"Authorization", "Content-Type", "OpenAI-Beta"}
  {
    var h0 := map["Authorization" := "Bearer " + c.apiKey];
    var h1 := if includeJson then h0["Content-Type" := "application/json"] else h0;
    if c.betaHeader != "" then h1["OpenAI-Beta" := c.betaHeader] else h1
  }

  const VideosPath := "/videos"

  function CreateUrl(c: Client): string {
    c.apiBase + VideosPath
  }

  function RetrieveUrl(c: Client, jobId: string): string {
    c.apiBase + VideosPath + "/" + jobId
  }

  function ContentUrl(c: Client, jobId: string): string {
    c.apiBase + VideosPath + "/" + jobId + "/content"
  }

  /** The remote job id a retrieve URL addresses, if `url` is one. */
  function JobIdOfRetrieveUrl(c: Client, url: string): Option<string> {
    var prefix := CreateUrl(c) + "/";
    if |prefix| <= |url| && url[..|prefix|] == prefix then Some(url[|prefix|..]) else None
  }

  /** The three URLs share the collection prefix, a retrieve URL gives back the
      job id it was built from (so different jobs are never confused), and the
      content URL extends the retrieve URL. */
  lemma UrlLayout(c: Client, jobId: string)
    ensures RetrieveUrl(c, jobId) == CreateUrl(c) + "/" + jobId
    ensures ContentUrl(c, jobId) == RetrieveUrl(c, jobId) + "/content"
    ensures JobIdOfRetrieveUrl(c, RetrieveUrl(c, jobId)) == Some(jobId)
  {
    var prefix := CreateUrl(c) + "/";
    assert RetrieveUrl(c, jobId) == prefix + jobId;
    assert (prefix + jobId)[..|prefix|] == prefix;
    assert (prefix + jobId)[|prefix|..] == jobId;
  }

  /** Two retrieve URLs of one client are equal only for the same job id. */
  lemma RetrieveUrlInjective(c: Client, a: string, b: string)
    requires RetrieveUrl(c, a) == RetrieveUrl(c, b)
    ensures a == b
  {
    UrlLayout(c, a);
    UrlLayout(c, b);
  }

  /** `{"model": self.model, **payload}`: every payload key, plus `model`, where
      a payload `model` key overrides the configured one. */
  function CreateBody(c: Client, payload: map<string, Json>): (body: map<string, Json>)
    ensures body.Keys == payload.Keys + {"model"}
    ensures forall k :: k in payload ==> body[k] == payload[k]
    ensures "model" !in payload ==> body["model"] == JStr(c.model)
  {
    map["model" := JStr(c.model)] + payload
  }

  /** `create_video`: POST the body to the collection URL with JSON headers. */
  function CreateRequest(c: Client, payload: map<string, Json>): (r: Request)
    ensures r.verb == POST && r.url == c.apiBase + "/videos" && r.params.None?
    ensures r.headers == Headers(c, true) && r.body == Some(CreateBody(c, payload))
  {
    Request(POST, CreateUrl(c), Headers(c, true), None, Some(CreateBody(c, payload)))
  }

  /** `retrieve_video`: GET the job's URL with JSON headers. */
  function RetrieveRequest(c: Client, jobId: string): (r: Request)
    ensures r.verb == GET && r.url == c.apiBase + "/videos/" + jobId && r.params.None?
    ensures r.headers == Headers(c, true) && r.body.None?
  {
    Request(GET, RetrieveUrl(c, jobId), Headers(c, true), None, None)
  }

  /** The query parameters of `stream_video_content`: `variant` and `token`
      only when truthy, and no parameters at all when neither is. */
  function StreamParams(variant: Option<string>, token: Option<string>): (p: Option<map<string, string>>)
    ensures p.None? <==> !Py.TruthyStr(variant) && !Py.TruthyStr(token)
    ensures p.Some? ==> ("variant" in p.value <==> Py.TruthyStr(variant))
    ensures p.Some? ==> ("token" in p.value <==> Py.TruthyStr(token))
    ensures p.Some? && "variant" in p.value ==> p.value["variant"] == variant.value
    ensures p.Some? && "token" in p.value ==> p.value["token"] == token.value
  {
    var p0: map<string, string> := map[];
    var p1 := if Py.TruthyStr(variant) then p0["variant" := variant.value] else p0;
    var p2 := if Py.TruthyStr(token) then p1["token" := token.value] else p1;
    if |p2| == 0 then None else Some(p2)
  }

  /** `stream_video_content`: GET the content URL without the JSON content type. */
  function StreamRequest(c: Client, jobId: string, variant: Option<string>, token: Option<string>): (r: Request)
    ensures r.verb == GET && r.url == c.apiBase + "/videos/" + jobId + "/content"
    ensures r.headers == Headers(c, false) && r.body.None?
    ensures "Authorization" in r.headers && "Content-Type" !in r.headers
    ensures r.params == StreamParams(variant, token)
  {
    Request(GET, ContentUrl(c, jobId), Headers(c, false), StreamParams(variant, token), None)
  }

  // ---------------------------------------------------------------------------
  // Replies
  // ---------------------------------------------------------------------------

  /** What came back over the wire: a response with a status code, its text and
      its decoded body, or a transport failure (`httpx.RequestError`). */
  datatype Reply<T> = Responded(code: int, text: string, body: T) | TransportFailed(reason: string)

  /** What a client call returns or raises. `NotAnObject` is a 2xx reply whose
      body is not a JSON object: `response.json()` or the `.get` right after it
      raises, and neither caller catches that. */
  datatype Call<T> =
    | Done(value: T)
    | HttpStatusError(code: int, text: string)
    | RequestError(reason: string)
    | NotAnObject

  predicate IsSuccess(code: int) {
    200 <= code < 300
  }

  /** `raise_for_status()` and then `response.json()`: a non-2xx reply raises
      before any data is returned. `None` as a body stands for one that is not a
      JSON object. */
  function Receive<T>(reply: Reply<Option<T>>): (r: Call<T>)
    ensures reply.TransportFailed? <==> r.RequestError?
    ensures reply.Responded? && !IsSuccess(reply.code) <==> r.HttpStatusError?
    ensures r.HttpStatusError? ==> r.code == reply.code && r.text == reply.text
    ensures r.Done? <==> reply.Responded? && IsSuccess(reply.code) && reply.body.Some?
    ensures r.Done? ==> r.value == reply.body.value
  {
    match reply
    case TransportFailed(why) => RequestError(why)
    case Responded(code, text, body) =>
      if !IsSuccess(code) then HttpStatusError(code, text)
      else if body.None? then NotAnObject
      else Done(body.value)
  }

  /** `stream_video_content`: `raise_for_status()` before the streamed bytes
      are handed to the caller; the bytes are not decoded. */
  function ReceiveStream(reply: Reply<seq<bv8>>): (r: Call<seq<bv8>>)
    ensures r.Done? <==> reply.Responded? && IsSuccess(reply.code)
    ensures r.HttpStatusError? <==> reply.Responded? && !IsSuccess(reply.code)
    ensures r.RequestError? <==> reply.TransportFailed?
    ensures r.Done? ==> r.value == reply.body
  {
    match reply
    case TransportFailed(why) => RequestError(why)
    case Responded(code, text, bytes) =>
      if IsSuccess(code) then Done(bytes) else HttpStatusError(code, text)
  }

  /** The remote job as the Videos API reports it. Keys read with `.get(k)`
      and truthiness are `Option`s (absent and `null` behave alike); keys read
      with `.get(k, default)` or `[k]` are `Slot`s. */
  datatype VideoPayload = VideoPayload(
    id: Slot<string>,
    status: Slot<string>,
    seconds: Option<int>,
    size: Option<string>,
    error: Slot<ErrorPayload>,
    result: Slot<ResultPayload>,
    assets: Option<seq<AssetPayload>>)

  datatype ErrorPayload = ErrorPayload(message: Option<string>)

  datatype ResultPayload = ResultPayload(assets: Option<seq<AssetPayload>>)

  /** One entry of an asset list. */
  datatype AssetPayload = AssetPayload(
    downloadUrl: Option<string>,
    streamUrl: Option<string>,
    previewUrl: Option<string>,
    thumbnailUrl: Option<string>,
    duration: Option<int>,
    resolution: Option<string>,
    fileSize: Option<int>)
}

=== FILE: poller.dfy ===
/** One reconciliation tick: the pending jobs are read in one transaction, each
    is updated from the outcome of its own status call, and the transaction
    commits, or rolls back if anything escaped. The remote calls, the clock
    and the uuid generator are inputs (`PollInput`). */
module Poller {
  import opened Wrappers
  import Py
  import opened Database
  import opened OpenAIClient

  const DefaultFailureMessage := "Generation failed"

  /** The statuses the tick's query selects. Any other string, including one
      copied verbatim from the remote API, is never polled again. */
  predicate IsPending(status: string) {
    status == Queued.Value() || status == Processing.Value()
  }

  /** `error_message` is set exactly when the status is `"failed"`. */
  predicate ErrorMatchesStatus(job: Job) {
    job.errorMessage.Some? <==> job.status == Failed.Value()
  }

  /** The columns no poll writes. */
  predicate SameIdentity(before: Job, after: Job) {
    && after.id == before.id
    && after.userId == before.userId
    && after.prompt == before.prompt
    && after.soraJobId == before.soraJobId
    && after.createdAt == before.createdAt
  }

  /** Every asset row of `job` points back at it. */
  predicate AssetsOwned(job: Job) {
    forall i :: 0 <= i < |job.assets| ==> job.assets[i].jobId == job.id
  }

  // ---------------------------------------------------------------------------
  // _sync_assets
  // ---------------------------------------------------------------------------

  /** `response.get("result", {}).get("assets") or response.get("assets") or []`.
      A `result` that is not an object has no `.get` and raises. */
  function PayloadAssets(p: VideoPayload): (r: Result<seq<AssetPayload>, Fault>)
    ensures r.Err? <==> p.result.Null?
    ensures r.Err? ==> r.error == AttributeError
    ensures r.Ok? && |r.value| > 0 ==>
              (p.result.Given? && r.value == p.result.value.assets.GetOr([])) || r.value == p.assets.GetOr([])
    ensures r.Ok? && |r.value| == 0 ==>
              !(p.result.Given? && Py.TruthySeq(p.result.value.assets)) && !Py.TruthySeq(p.assets)
    ensures r.Ok? && p.result.Given? && Py.TruthySeq(p.result.value.assets) ==> r.value == p.result.value.assets.value
  {
    match p.result
    case Null => Err(AttributeError)
    case Missing => Ok(FirstTruthy(None, p.assets))
    case Given(nested) => Ok(FirstTruthy(nested.assets, p.assets))
  }

  /** `a or b or []` on optional lists. */
  function FirstTruthy<T>(a: Option<seq<T>>, b: Option<seq<T>>): seq<T> {
    if Py.TruthySeq(a) then a.value else if Py.TruthySeq(b) then b.value else []
  }

  /** The asset row carries what the payload entry says: `preview_url` prefers
      a truthy `stream_url`, and `file_size` is `None` exactly when the entry
      has none. */
  predicate Mirrors(a: Asset, e: AssetPayload) {
    && a.downloadUrl == e.downloadUrl
    && a.previewUrl == Py.OrStr(e.streamUrl, e.previewUrl)
    && a.thumbnailUrl == e.thumbnailUrl
    && a.durationSeconds == e.duration
    && a.resolution == e.resolution
    && a.fileSize == e.fileSize
  }

  /** Overwrites the payload-derived columns of an asset row in place. */
  function CopyInto(a: Asset, e: AssetPayload): (r: Asset)
    ensures Mirrors(r, e)
    ensures r.id == a.id && r.jobId == a.jobId && r.createdAt == a.createdAt
  {
    a.(downloadUrl := e.downloadUrl,
       previewUrl := Py.OrStr(e.streamUrl, e.previewUrl),
       thumbnailUrl := e.thumbnailUrl,
       durationSeconds := e.duration,
       resolution := e.resolution,
       fileSize := e.fileSize)
  }

  /** `_sync_assets`: only the first payload entry is used; it updates the
      job's first asset in place, or becomes the job's first asset when it has
      none. An empty payload list changes nothing. */
  function SyncAssets(job: Job, p: VideoPayload, freshAssetId: string, at: Timestamp): (r: Result<seq<Asset>, Fault>)
    ensures r.Err? <==> p.result.Null?
    ensures r.Ok? && PayloadAssets(p).value == [] ==> r.value == job.assets
    ensures r.Ok? && PayloadAssets(p).value != [] ==> (
              && |r.value| == (if |job.assets| == 0 then 1 else |job.assets|)
              && Mirrors(r.value[0], PayloadAssets(p).value[0])
              && (|job.assets| > 0 ==> r.value[1..] == job.assets[1..]))
    ensures r.Ok? && PayloadAssets(p).value != [] && |job.assets| > 0 ==>
              r.value[0].id == job.assets[0].id && r.value[0].createdAt == job.assets[0].createdAt
    ensures r.Ok? && PayloadAssets(p).value != [] && |job.assets| == 0 ==>
              r.value[0].id == freshAssetId && r.value[0].createdAt == at
    ensures r.Ok? && AssetsOwned(job) ==> AssetsOwned(job.(assets := r.value))
  {
    match PayloadAssets(p)
    case Err(f) => Err(f)
    case Ok(entries) =>
      if |entries| == 0 then Ok(job.assets)
      else
        var existing := if |job.assets| > 0 then job.assets[0]
                        else Asset(freshAssetId, job.id, None, None, None, None, None, None, at);
        var tail := if |job.assets| > 0 then job.assets[1..] else [];
        Ok([CopyInto(existing, entries[0])] + tail)
  }

  /** A job never holds more than one asset because of polling: starting from
      at most one, it ends with at most one. */
  lemma SyncNeverAddsSecondAsset(job: Job, p: VideoPayload, freshAssetId: string, at: Timestamp)
    requires |job.assets| <= 1
    requires p.result.Null? == false
    ensures |SyncAssets(job, p, freshAssetId, at).value| <= 1
  {
  }

  // ---------------------------------------------------------------------------
  // One job
  // ---------------------------------------------------------------------------

  /** Oracles and remote outcome for one job of a tick. */
  datatype PollInput = PollInput(reply: Call<VideoPayload>, at: Timestamp, freshAssetId: string)

  /** What the loop body does to one job: writes it, leaves it (`continue`),
      or lets an exception escape. */
  datatype StepResult = Wrote(job: Job) | Skipped | Raised(fault: Fault)

  /** `response.get("error", {}).get("message") or "Generation failed"`. */
  function FailureMessage(p: VideoPayload): (r: Result<string, Fault>)
    ensures r.Err? <==> p.error.Null?
    ensures r.Ok? ==> r.value != ""
    ensures r.Ok? && p.error.Given? && Py.TruthyStr(p.error.value.message) ==> r.value == p.error.value.message.value
    ensures r.Ok? && !(p.error.Given? && Py.TruthyStr(p.error.value.message)) ==> r.value == DefaultFailureMessage
  {
    match p.error
    case Missing => Ok(DefaultFailureMessage)
    case Null => Err(AttributeError)
    case Given(e) => Ok(if Py.TruthyStr(e.message) then e.message.value else DefaultFailureMessage)
  }

  /** The status the job takes from a payload: the reported one, the old one
      when the payload has none, `None` for an explicit `null`. */
  function NextStatus(job: Job, p: VideoPayload): Option<string> {
    match p.status
    case Missing => Some(job.status)
    case Null => None
    case Given(s) => Some(s)
  }

  /** The update a successful status call makes to the job. */
  function ApplyPayload(job: Job, p: VideoPayload, at: Timestamp, freshAssetId: string): (r: StepResult)
    ensures !r.Skipped?
    ensures r.Raised? <==>
              || p.status.Null?
              || (NextStatus(job, p) == Some(Completed.Value()) && p.result.Null?)
              || (NextStatus(job, p) == Some(Failed.Value()) && p.error.Null?)
    ensures r.Wrote? ==> Some(r.job.status) == NextStatus(job, p)
    // a failed job gets `error.message`, or the default message
    ensures r.Wrote? && r.job.status == Failed.Value() ==>
              FailureMessage(p).Ok? && r.job.errorMessage == Some(FailureMessage(p).value)
    // a completed job gets its assets from `_sync_assets`
    ensures r.Wrote? && r.job.status == Completed.Value() ==>
              SyncAssets(job, p, freshAssetId, at).Ok? && r.job.assets == SyncAssets(job, p, freshAssetId, at).value
  {
    var seconds := Py.OrInt(p.seconds, job.seconds);
    var size := Py.OrStr(p.size, job.size);
    match NextStatus(job, p)
    // UPDATE ... SET status = NULL fails the NOT NULL constraint
    case None => Raised(IntegrityError)
    case Some(status) =>
      var row := job.(status := status, updatedAt := at, seconds := seconds, size := size);
      if status == Completed.Value() then
        match SyncAssets(job, p, freshAssetId, at)
        case Err(f) => Raised(f)
        case Ok(assets) => Wrote(row.(errorMessage := None, assets := assets))
      else if status == Failed.Value() then
        match FailureMessage(p)
        case Err(f) => Raised(f)
        case Ok(message) => Wrote(row.(errorMessage := Some(message)))
      else
        Wrote(row.(errorMessage := None))
  }

  /** The loop body for one job, given the outcome of its status call. */
  function PollStep(job: Job, input: PollInput): (r: StepResult)
    // a network error leaves the job as it was
    ensures input.reply.RequestError? <==> r.Skipped?
    // an HTTP error status fails the job with the response body as message
    ensures input.reply.HttpStatusError? ==> (
              && r.Wrote? && r.job.status == Failed.Value()
              && r.job.errorMessage == Some(input.reply.text)
              && r.job.seconds == job.seconds && r.job.size == job.size
              && r.job.assets == job.assets)
    ensures input.reply.NotAnObject? ==> r == Raised(DecodeError)
    // a successful poll raises only for a null status, or a non-object
    // `result`/`error` on the branch that reads it
    ensures input.reply.Done? ==> (r.Raised? <==>
              || input.reply.value.status.Null?
              || (NextStatus(job, input.reply.value) == Some(Completed.Value()) && input.reply.value.result.Null?)
              || (NextStatus(job, input.reply.value) == Some(Failed.Value()) && input.reply.value.error.Null?))
    // a payload without status keeps the old one
    ensures input.reply.Done? && input.reply.value.status.Missing? && r.Wrote? ==> r.job.status == job.status
    ensures input.reply.Done? && input.reply.value.status.Given? && r.Wrote? ==>
              r.job.status == input.reply.value.status.value
    // seconds and size change only to truthy reported values
    ensures input.reply.Done? && r.Wrote? ==>
              r.job.seconds == (if Py.TruthyInt(input.reply.value.seconds) then input.reply.value.seconds else job.seconds)
    ensures input.reply.Done? && r.Wrote? ==>
              r.job.size == (if Py.TruthyStr(input.reply.value.size) then input.reply.value.size else job.size)
    // a failed job always has a non-empty message from a successful poll
    ensures input.reply.Done? && r.Wrote? && r.job.status == Failed.Value() ==>
              r.job.errorMessage.Some? && r.job.errorMessage.value != ""
    ensures input.reply.Done? && r.Wrote? && r.job.status == Failed.Value() ==>
              FailureMessage(input.reply.value).Ok?
              && r.job.errorMessage == Some(FailureMessage(input.reply.value).value)
    // assets change only on completion, and then as `_sync_assets` says
    ensures r.Wrote? && r.job.status != Completed.Value() ==> r.job.assets == job.assets
    ensures input.reply.Done? && r.Wrote? && r.job.status == Completed.Value() ==>
              && SyncAssets(job, input.reply.value, input.freshAssetId, input.at).Ok?
              && r.job.assets == SyncAssets(job, input.reply.value, input.freshAssetId, input.at).value
    ensures r.Wrote? ==> ErrorMatchesStatus(r.job)
    ensures r.Wrote? ==> SameIdentity(job, r.job) && r.job.updatedAt == input.at
    ensures r.Wrote? && AssetsOwned(job) ==> AssetsOwned(r.job)
  {
    match input.reply
    case RequestError(_) => Skipped
    case NotAnObject => Raised(DecodeError)
    case HttpStatusError(_, text) =>
      Wrote(job.(errorMessage := Some(text), status := Failed.Value(), updatedAt := input.at))
    case Done(p) => ApplyPayload(job, p, input.at, input.freshAssetId)
  }

  /** The job as it stands after its step, when the step did not raise. */
  function After(job: Job, input: PollInput): Job {
    match PollStep(job, input)
    case Wrote(j) => j
    case _ => job
  }

  /** A completed poll stores the first payload entry as the job's first asset. */
  lemma CompletedPollStoresFirstEntry(job: Job, input: PollInput)
    requires input.reply.Done?
    requires NextStatus(job, input.reply.value) == Some(Completed.Value())
    requires !input.reply.value.result.Null?
    requires |PayloadAssets(input.reply.value).value| > 0
    ensures PollStep(job, input).Wrote?
    ensures |PollStep(job, input).job.assets| > 0
    ensures Mirrors(PollStep(job, input).job.assets[0], PayloadAssets(input.reply.value).value[0])
  {
  }

  /** A remote status the backend does not know, such as `"in_progress"`, is
      stored as it is, and the job leaves the pending set for good. */
  lemma UnknownStatusStopsPolling(job: Job, p: VideoPayload, at: Timestamp, freshAssetId: string)
    requires p.status.Given? && !IsPending(p.status.value)
    requires p.status.value != Completed.Value() && p.status.value != Failed.Value()
    ensures PollStep(job, PollInput(Done(p), at, freshAssetId)).Wrote?
    ensures PollStep(job, PollInput(Done(p), at, freshAssetId)).job.status == p.status.value
    ensures !IsPending(PollStep(job, PollInput(Done(p), at, freshAssetId)).job.status)
  {
  }

  // ---------------------------------------------------------------------------
  // The tick
  // ---------------------------------------------------------------------------

  predicate Distinct(ids: seq<string>) {
    forall i, j :: 0 <= i < j < |ids| ==> ids[i] != ids[j]
  }

  /** `order` lists every row of the table once, in the order the query
      returns them. */
  predicate IsListing(s: Store, order: seq<string>) {
    && Distinct(order)
    && (forall i :: 0 <= i < |order| ==> order[i] in s.jobs)
    && (forall k :: k in s.jobs ==> k in order)
  }

  /** The query `status IN ('queued', 'processing')`, in listing order. */
  function PendingIds(s: Store, order: seq<string>): (r: seq<string>)
    requires forall i :: 0 <= i < |order| ==> order[i] in s.jobs
    ensures forall i :: 0 <= i < |r| ==> r[i] in s.jobs && IsPending(s.jobs[r[i]].status)
    ensures forall i :: 0 <= i < |r| ==> r[i] in order
    ensures forall i :: 0 <= i < |order| && IsPending(s.jobs[order[i]].status) ==> order[i] in r
    ensures Distinct(order) ==> Distinct(r)
    ensures |r| == 0 <==> forall i :: 0 <= i < |order| ==> !IsPending(s.jobs[order[i]].status)
  {
    if |order| == 0 then []
    else
      var rest := PendingIds(s, order[1..]);
      if IsPending(s.jobs[order[0]].status) then
        assert forall i :: 0 <= i < |rest| ==> rest[i] in order[1..];
        [order[0]] + rest
      else rest
  }

  /** The pending ids keep the listing's relative order. */
  lemma {:induction false} PendingIdsKeepOrder(s: Store, order: seq<string>)
    requires forall i :: 0 <= i < |order| ==> order[i] in s.jobs
    ensures KeepsOrder(PendingIds(s, order), order)
    decreases |order|
  {
    if |order| > 0 {
      var rest := PendingIds(s, order[1..]);
      PendingIdsKeepOrder(s, order[1..]);
      if IsPending(s.jobs[order[0]].status) {
        KeepsOrderCons(rest, order);
      } else {
        KeepsOrderTail(rest, order);
      }
    }
  }

  /** Every two entries of `r` occur in `order` in the same relative order. */
  predicate KeepsOrder(r: seq<string>, order: seq<string>) {
    forall i, j :: 0 <= i < j < |r| ==> Precedes(order, r[i], r[j])
  }

  /** `x` occurs in `order` at an earlier position than `y`. */
  predicate Precedes(order: seq<string>, x: string, y: string) {
    exists a, b :: 0 <= a < b < |order| && order[a] == x && order[b] == y
  }

  lemma KeepsOrderTail(r: seq<string>, order: seq<string>)
    requires |order| > 0 && KeepsOrder(r, order[1..])
    ensures KeepsOrder(r, order)
  {
    forall i, j | 0 <= i < j < |r|
      ensures Precedes(order, r[i], r[j])
    {
      assert Precedes(order[1..], r[i], r[j]);
      var a, b :| 0 <= a < b < |order| - 1 && order[1..][a] == r[i] && order[1..][b] == r[j];
      assert order[a + 1] == r[i] && order[b + 1] == r[j];
    }
  }

  lemma KeepsOrderCons(r: seq<string>, order: seq<string>)
    requires |order| > 0 && KeepsOrder(r, order[1..])
    requires forall i :: 0 <= i < |r| ==> r[i] in order[1..]
    ensures KeepsOrder([order[0]] + r, order)
  {
    var r' := [order[0]] + r;
    forall i, j | 0 <= i < j < |r'|
      ensures Precedes(order, r'[i], r'[j])
    {
      if i == 0 {
        assert r'[j] == r[j - 1] && r[j - 1] in order[1..];
        var b :| 0 <= b < |order| - 1 && order[1..][b] == r[j - 1];
        assert order[0] == r'[i] && order[b + 1] == r'[j];
      } else {
        assert r'[i] == r[i - 1] && r'[j] == r[j - 1];
        assert Precedes(order[1..], r[i - 1], r[j - 1]);
        var a, b :| 0 <= a < b < |order| - 1 && order[1..][a] == r[i - 1] && order[1..][b] == r[j - 1];
        assert order[a + 1] == r'[i] && order[b + 1] == r'[j];
      }
    }
  }

  /** What the loop leaves in the session: the table, the remote ids it asked
      about in order, and the exception that escaped, if any. */
  datatype Run = Run(store: Store, polled: seq<string>, fault: Option<Fault>)

  /** The table after one job's step has been written back. */
  function Write(s: Store, id: string, step: StepResult): Store
    requires id in s.jobs
  {
    if step.Wrote? then Store(s.jobs[id := step.job]) else s
  }

  /** Writing one job's step back keeps the table's constraints and leaves
      every other row alone. */
  lemma WriteKeepsValid(s: Store, id: string, input: PollInput)
    requires Valid(s) && id in s.jobs
    ensures var s' := Write(s, id, PollStep(s.jobs[id], input));
            Valid(s') && s'.jobs.Keys == s.jobs.Keys
            && (forall k :: k in s.jobs && k != id ==> s'.jobs[k] == s.jobs[k])
            && s'.jobs[id] == After(s.jobs[id], input)
  {
    assert AssetsOwned(s.jobs[id]);
  }

  /** The `for job in jobs` loop. */
  function PollAll(s: Store, ids: seq<string>, inputs: seq<PollInput>): (r: Run)
    requires Valid(s)
    requires Distinct(ids) && (forall i :: 0 <= i < |ids| ==> ids[i] in s.jobs)
    requires |inputs| == |ids|
    ensures Valid(r.store)
    ensures r.store.jobs.Keys == s.jobs.Keys
    ensures forall k :: k in s.jobs && k !in ids ==> r.store.jobs[k] == s.jobs[k]
    ensures |r.polled| <= |ids|
    ensures forall i :: 0 <= i < |r.polled| ==> r.polled[i] == s.jobs[ids[i]].soraJobId
    ensures r.fault.None? ==> |r.polled| == |ids|
    decreases |ids|
  {
    if |ids| == 0 then Run(s, [], None)
    else
      var job := s.jobs[ids[0]];
      var step := PollStep(job, inputs[0]);
      if step.Raised? then Run(s, [job.soraJobId], Some(step.fault))
      else
        var s' := Write(s, ids[0], step);
        WriteKeepsValid(s, ids[0], inputs[0]);
        TailUntouched(s, s', ids);
        var rest := PollAll(s', ids[1..], inputs[1..]);
        assert forall i :: 0 <= i < |rest.polled| ==> rest.polled[i] == s.jobs[ids[i + 1]].soraJobId;
        PolledCons(s, ids, rest.polled);
        Run(rest.store, [job.soraJobId] + rest.polled, rest.fault)
  }

  /** Asking about the first job and then about the rest's jobs asks about the
      listing's jobs in order. */
  lemma PolledCons(s: Store, ids: seq<string>, rest: seq<string>)
    requires |ids| > 0 && (forall i :: 0 <= i < |ids| ==> ids[i] in s.jobs)
    requires |rest| <= |ids| - 1
    requires forall i :: 0 <= i < |rest| ==> rest[i] == s.jobs[ids[i + 1]].soraJobId
    ensures forall i :: 0 <= i < |rest| + 1 ==> ([s.jobs[ids[0]].soraJobId] + rest)[i] == s.jobs[ids[i]].soraJobId
  {
  }

  /** The rest of the listing still reads the rows it would have read before
      the first job was written. */
  lemma TailUntouched(s: Store, s': Store, ids: seq<string>)
    requires |ids| > 0 && Distinct(ids) && (forall i :: 0 <= i < |ids| ==> ids[i] in s.jobs)
    requires s'.jobs.Keys == s.jobs.Keys
    requires forall k :: k in s.jobs && k != ids[0] ==> s'.jobs[k] == s.jobs[k]
    ensures Distinct(ids[1..])
    ensures forall i :: 0 <= i < |ids| - 1 ==> ids[1..][i] in s'.jobs && s'.jobs[ids[1..][i]] == s.jobs[ids[i + 1]]
  {
    forall i | 0 <= i < |ids| - 1
      ensures ids[1..][i] in s'.jobs && s'.jobs[ids[1..][i]] == s.jobs[ids[i + 1]]
    {
      assert ids[1..][i] == ids[i + 1] != ids[0];
    }
  }

  /** One turn of the loop: the first job's step, then the rest of the
      listing on the table that step left. */
  lemma PollAllUnfold(s: Store, ids: seq<string>, inputs: seq<PollInput>)
    requires Valid(s)
    requires Distinct(ids) && (forall i :: 0 <= i < |ids| ==> ids[i] in s.jobs)
    requires |inputs| == |ids| && |ids| > 0
    requires !PollStep(s.jobs[ids[0]], inputs[0]).Raised?
    ensures var s' := Write(s, ids[0], PollStep(s.jobs[ids[0]], inputs[0]));
            && Valid(s') && Distinct(ids[1..])
            && (forall i :: 0 <= i < |ids| - 1 ==> ids[1..][i] in s'.jobs && s'.jobs[ids[1..][i]] == s.jobs[ids[i + 1]])
            && s'.jobs[ids[0]] == After(s.jobs[ids[0]], inputs[0])
            && PollAll(s, ids, inputs).fault == PollAll(s', ids[1..], inputs[1..]).fault
            && PollAll(s, ids, inputs).store == PollAll(s', ids[1..], inputs[1..]).store
  {
    var s' := Write(s, ids[0], PollStep(s.jobs[ids[0]], inputs[0]));
    WriteKeepsValid(s, ids[0], inputs[0]);
    TailUntouched(s, s', ids);
  }

  /** The loop ends without an exception exactly when no job's step raises. */
  lemma {:induction false} PollAllRaisesIff(s: Store, ids: seq<string>, inputs: seq<PollInput>)
    requires Valid(s)
    requires Distinct(ids) && (forall i :: 0 <= i < |ids| ==> ids[i] in s.jobs)
    requires |inputs| == |ids|
    ensures PollAll(s, ids, inputs).fault.None? <==> NoStepRaises(s, ids, inputs)
    decreases |ids|
  {
    if |ids| > 0 {
      var step := PollStep(s.jobs[ids[0]], inputs[0]);
      if step.Raised? {
        assert !NoStepRaises(s, ids, inputs);
      } else {
        var s' := Write(s, ids[0], step);
        PollAllUnfold(s, ids, inputs);
        PollAllRaisesIff(s', ids[1..], inputs[1..]);
        NoStepRaisesTail(s, s', ids, inputs);
      }
    }
  }

  /** No listed job's step raises. */
  predicate NoStepRaises(s: Store, ids: seq<string>, inputs: seq<PollInput>)
    requires (forall i :: 0 <= i < |ids| ==> ids[i] in s.jobs) && |inputs| == |ids|
  {
    forall i :: 0 <= i < |ids| ==> !PollStep(s.jobs[ids[i]], inputs[i]).Raised?
  }

  lemma NoStepRaisesTail(s: Store, s': Store, ids: seq<string>, inputs: seq<PollInput>)
    requires |ids| > 0 && (forall i :: 0 <= i < |ids| ==> ids[i] in s.jobs) && |inputs| == |ids|
    requires forall i :: 0 <= i < |ids| - 1 ==> ids[1..][i] in s'.jobs && s'.jobs[ids[1..][i]] == s.jobs[ids[i + 1]]
    requires !PollStep(s.jobs[ids[0]], inputs[0]).Raised?
    ensures NoStepRaises(s, ids, inputs) <==> NoStepRaises(s', ids[1..], inputs[1..])
  {
    if NoStepRaises(s', ids[1..], inputs[1..]) {
      forall i | 1 <= i < |ids|
        ensures !PollStep(s.jobs[ids[i]], inputs[i]).Raised?
      {
        assert !PollStep(s'.jobs[ids[1..][i - 1]], inputs[1..][i - 1]).Raised?;
      }
    }
    if NoStepRaises(s, ids, inputs) {
      forall i | 0 <= i < |ids| - 1
        ensures !PollStep(s'.jobs[ids[1..][i]], inputs[1..][i]).Raised?
      {
        assert !PollStep(s.jobs[ids[i + 1]], inputs[i + 1]).Raised?;
      }
    }
  }

  /** When the loop ends without an exception, every listed job holds its own
      step's result: one job's outcome never depends on another's. */
  lemma {:induction false} PollAllIndependent(s: Store, ids: seq<string>, inputs: seq<PollInput>)
    requires Valid(s)
    requires Distinct(ids) && (forall i :: 0 <= i < |ids| ==> ids[i] in s.jobs)
    requires |inputs| == |ids|
    ensures PollAll(s, ids, inputs).fault.None? ==>
              forall i :: 0 <= i < |ids| ==> PollAll(s, ids, inputs).store.jobs[ids[i]] == After(s.jobs[ids[i]], inputs[i])
    decreases |ids|
  {
    if |ids| > 0 && PollAll(s, ids, inputs).fault.None? {
      assert !PollStep(s.jobs[ids[0]], inputs[0]).Raised?;
      var s' := Write(s, ids[0], PollStep(s.jobs[ids[0]], inputs[0]));
      PollAllUnfold(s, ids, inputs);
      PollAllIndependent(s', ids[1..], inputs[1..]);
      var r := PollAll(s, ids, inputs).store;
      assert ids[0] !in ids[1..];
      assert r.jobs[ids[0]] == s'.jobs[ids[0]];
      forall i | 1 <= i < |ids|
        ensures r.jobs[ids[i]] == After(s.jobs[ids[i]], inputs[i])
      {
        assert ids[i] == ids[1..][i - 1];
      }
    }
  }

  /** The outcome of one tick. */
  datatype TickReport = TickReport(store: Store, polled: seq<string>, raised: Option<Fault>)

  /** `_poll_once`: the loop inside `session_scope`. */
  function Tick(s: Store, order: seq<string>, inputs: seq<PollInput>): (r: TickReport)
    requires Valid(s) && IsListing(s, order)
    requires |inputs| == |PendingIds(s, order)|
    ensures Valid(r.store)
    ensures r.store.jobs.Keys == s.jobs.Keys
    // only jobs the query selects are touched
    ensures forall k :: k in s.jobs && !IsPending(s.jobs[k].status) ==> r.store.jobs[k] == s.jobs[k]
    // an escaped exception rolls back every write of the tick
    ensures r.raised.Some? ==> r.store == s
    ensures r.raised.None? <==>
              forall i :: 0 <= i < |inputs| ==> !PollStep(s.jobs[PendingIds(s, order)[i]], inputs[i]).Raised?
    // otherwise each pending job got its own update, whatever happened to the others
    ensures r.raised.None? ==>
              forall i :: 0 <= i < |inputs| ==>
                var k := PendingIds(s, order)[i]; r.store.jobs[k] == After(s.jobs[k], inputs[i])
    // one status call per pending job, in order, and none without one
    ensures |r.polled| <= |inputs|
    ensures forall i :: 0 <= i < |r.polled| ==> r.polled[i] == s.jobs[PendingIds(s, order)[i]].soraJobId
    ensures r.raised.None? ==> |r.polled| == |inputs|
  {
    var pending := PendingIds(s, order);
    var run := PollAll(s, pending, inputs);
    PollAllRaisesIff(s, pending, inputs);
    PollAllIndependent(s, pending, inputs);
    var scope := SessionScope(s, run.store, run.fault);
    TickReport(scope.store, run.polled, scope.raised)
  }

  /** With nothing pending a tick makes no remote call and writes nothing. */
  lemma IdleTick(s: Store, order: seq<string>)
    requires Valid(s) && IsListing(s, order)
    requires forall k :: k in s.jobs ==> !IsPending(s.jobs[k].status)
    ensures PendingIds(s, order) == []
    ensures Tick(s, order, []) == TickReport(s, [], None)
  {
  }

  /** A network error on one job does not keep the other jobs of the tick from
      being updated: the failing job is left as it was and every other job gets
      its own step. */
  lemma NetworkErrorIsolated(s: Store, order: seq<string>, inputs: seq<PollInput>, i: int)
    requires Valid(s) && IsListing(s, order)
    requires |inputs| == |PendingIds(s, order)|
    requires 0 <= i < |inputs| && inputs[i].reply.RequestError?
    requires forall j :: 0 <= j < |inputs| ==> !PollStep(s.jobs[PendingIds(s, order)[j]], inputs[j]).Raised?
    ensures Tick(s, order, inputs).raised.None?
    ensures Tick(s, order, inputs).store.jobs[PendingIds(s, order)[i]] == s.jobs[PendingIds(s, order)[i]]
    ensures forall j :: 0 <= j < |inputs| && j != i ==>
              Tick(s, order, inputs).store.jobs[PendingIds(s, order)[j]]
                == After(s.jobs[PendingIds(s, order)[j]], inputs[j])
  {
  }

  /** After a committed tick, every job it wrote from a reply keeps
      `error_message` set exactly when its status is `"failed"`. */
  lemma TickKeepsErrorInvariant(s: Store, order: seq<string>, inputs: seq<PollInput>, i: int)
    requires Valid(s) && IsListing(s, order)
    requires |inputs| == |PendingIds(s, order)|
    requires 0 <= i < |inputs| && !inputs[i].reply.RequestError?
    ensures Tick(s, order, inputs).raised.None? ==>
              ErrorMatchesStatus(Tick(s, order, inputs).store.jobs[PendingIds(s, order)[i]])
  {
  }

  /** A job that a tick leaves outside `queued`/`processing` is untouched by
      the next tick, whatever that tick's replies are. */
  lemma SettledJobStaysSettled(s: Store, order: seq<string>, inputs: seq<PollInput>,
                               inputs2: seq<PollInput>, k: string)
    requires Valid(s) && IsListing(s, order)
    requires |inputs| == |PendingIds(s, order)|
    requires k in s.jobs
    ensures var s1 := Tick(s, order, inputs).store;
            !IsPending(s1.jobs[k].status) && |inputs2| == |PendingIds(s1, order)| ==>
              IsListing(s1, order) && Tick(s1, order, inputs2).store.jobs[k] == s1.jobs[k]
  {
  }
}

=== FILE: py.dfy ===
/** The pieces of Python's built-in semantics the backend leans on: truthiness of
    `x or y`, and the whitespace rules of `str.split()` and `str.strip()`. */
module Py {
  import opened Wrappers

  // ---------------------------------------------------------------------------
  // Truthiness: `None`, `0`, `""` and `[]` are false, everything else is true.
  // ---------------------------------------------------------------------------

  predicate TruthyStr(o: Option<string>) {
    o.Some? && o.value != ""
  }

  predicate TruthyInt(o: Option<int>) {
    o.Some? && o.value != 0
  }

  predicate TruthySeq<T>(o: Option<seq<T>>) {
    o.Some? && |o.value| > 0
  }

  /** Python's `a or b` on optional strings: `a` when truthy, otherwise `b`
      (even when `b` is falsy too). */
  function OrStr(a: Option<string>, b: Option<string>): (r: Option<string>)
    ensures TruthyStr(a) ==> r == a
    ensures !TruthyStr(a) ==> r == b
    ensures TruthyStr(r) <==> TruthyStr(a) || TruthyStr(b)
  {
    if TruthyStr(a) then a else b
  }

  /** Python's `a or b` on optional integers. */
  function OrInt(a: Option<int>, b: Option<int>): (r: Option<int>)
    ensures TruthyInt(a) ==> r == a
    ensures !TruthyInt(a) ==> r == b
    ensures TruthyInt(r) <==> TruthyInt(a) || TruthyInt(b)
  {
    if TruthyInt(a) then a else b
  }

  // ---------------------------------------------------------------------------
  // Whitespace
  // ---------------------------------------------------------------------------

  /** The characters `str.isspace()` accepts; `str.split()` and `str.strip()`
      with no argument split on and remove exactly these. */
  predicate IsSpace(c: char) {
    || ('\t' <= c <= '\r')
    || ('\U{1C}' <= c <= ' ')
    || c == '\U{85}' || c == '\U{A0}' || c == '\U{1680}'
    || ('\U{2000}' <= c <= '\U{200A}')
    || c == '\U{2028}' || c == '\U{2029}' || c == '\U{202F}' || c == '\U{205F}'
    || c == '\U{3000}'
  }

  predicate NotSpace(c: char) {
    !IsSpace(c)
  }

  /** Length of the longest prefix of `s` whose characters all satisfy `p`. */
  function PrefixRun(s: string, p: char -> bool): (k: nat)
    ensures k <= |s|
    ensures forall i :: 0 <= i < k ==> p(s[i])
    ensures k < |s| ==> !p(s[k])
  {
    if |s| > 0 && p(s[0]) then 1 + PrefixRun(s[1..], p) else 0
  }

  /** Length of the longest suffix of `s` whose characters all satisfy `p`. */
  function SuffixRun(s: string, p: char -> bool): (k: nat)
    ensures k <= |s|
    ensures forall i :: |s| - k <= i < |s| ==> p(s[i])
    ensures k < |s| ==> !p(s[|s| - k - 1])
  {
    if |s| > 0 && p(s[|s| - 1]) then 1 + SuffixRun(s[..|s| - 1], p) else 0
  }

  /** `s.rstrip(c)`: `s` without its trailing run of `c`. */
  function RStripChar(s: string, c: char): (r: string)
    ensures |r| <= |s| && r == s[..|r|]
    ensures forall i :: |r| <= i < |s| ==> s[i] == c
    ensures |r| == 0 || r[|r| - 1] != c
  {
    s[..|s| - SuffixRun(s, x => x == c)]
  }

  /** `s.strip()`: `s` without leading and trailing whitespace. */
  function Strip(s: string): (r: string)
    ensures exists a, b :: 0 <= a <= b <= |s| && r == s[a..b]
                        && (forall i :: 0 <= i < a ==> IsSpace(s[i]))
                        && (forall i :: b <= i < |s| ==> IsSpace(s[i]))
    ensures |r| == 0 || (NotSpace(r[0]) && NotSpace(r[|r| - 1]))
  {
    var a := PrefixRun(s, IsSpace);
    var t := s[a..];
    var k := SuffixRun(t, IsSpace);
    var b := a + |t| - k;
    assert s[a..b] == t[..|t| - k];
    assert forall i :: b <= i < |s| ==> s[i] == t[i - a];
    assert |t| - k > 0 ==> s[a..b][0] == t[0] && s[a..b][b - a - 1] == t[|t| - k - 1];
    s[a..b]
  }

  /** A string that neither starts nor ends with whitespace is left alone by `Strip`. */
  lemma StripTrimmed(s: string)
    requires |s| == 0 || (NotSpace(s[0]) && NotSpace(s[|s| - 1]))
    ensures Strip(s) == s
  {
    var a := PrefixRun(s, IsSpace);
    if |s| > 0 {
      assert a == 0;
    }
  }

  /** Stripping twice is stripping once. */
  lemma StripIdempotent(s: string)
    ensures Strip(Strip(s)) == Strip(s)
  {
    StripTrimmed(Strip(s));
  }

  /** Blank padding on either side does not change what `Strip` keeps. */
  lemma StripIgnoresPadding(pre: string, s: string, post: string)
    requires forall i :: 0 <= i < |pre| ==> IsSpace(pre[i])
    requires forall i :: 0 <= i < |post| ==> IsSpace(post[i])
    requires |s| > 0 && NotSpace(s[0]) && NotSpace(s[|s| - 1])
    ensures Strip(pre + s + post) == s
  {
    var w := pre + s + post;
    var a := PrefixRun(w, IsSpace);
    assert w[|pre|] == s[0];
    assert a == |pre|;
    var t := w[a..];
    assert t == s + post;
    var k := SuffixRun(t, IsSpace);
    assert t[|s| - 1] == s[|s| - 1];
    assert k == |post|;
    assert t[..|t| - k] == s;
  }

  // ---------------------------------------------------------------------------
  // str.split()
  // ---------------------------------------------------------------------------

  /** A word of `str.split()`: non-empty, no whitespace. */
  predicate IsWord(w: string) {
    |w| > 0 && forall i :: 0 <= i < |w| ==> NotSpace(w[i])
  }

  /** `s.split()`: the maximal runs of non-whitespace characters, in order. */
  function Split(s: string): (words: seq<string>)
    ensures forall i :: 0 <= i < |words| ==> IsWord(words[i])
    decreases |s|
  {
    var a := PrefixRun(s, IsSpace);
    if a == |s| then []
    else
      var t := s[a..];
      var n := PrefixRun(t, NotSpace);
      [t[..n]] + Split(t[n..])
  }

  /** `s` holds two words: a non-space, later a space, later a non-space. */
  predicate HasTwoWords(s: string) {
    exists i, j, k :: 0 <= i < j < k < |s| && NotSpace(s[i]) && IsSpace(s[j]) && NotSpace(s[k])
  }

  /** `s.split()` is empty exactly when `s` is blank. */
  lemma SplitEmptyIffBlank(s: string)
    ensures |Split(s)| == 0 <==> forall i :: 0 <= i < |s| ==> IsSpace(s[i])
  {
  }

  /** `len(s.split()) >= 2` holds exactly when `s` has a non-space, a space and a
      non-space in that order: the split agrees with a definition that does
      not split at all. */
  lemma SplitTwoWords(s: string)
    ensures |Split(s)| >= 2 <==> HasTwoWords(s)
  {
    if |Split(s)| >= 2 {
      TwoWordsFromSplit(s);
    }
    if HasTwoWords(s) {
      var i, j, k :| 0 <= i < j < k < |s| && NotSpace(s[i]) && IsSpace(s[j]) && NotSpace(s[k]);
      SplitFromTwoWords(s, i, j, k);
    }
  }

  lemma TwoWordsFromSplit(s: string)
    requires |Split(s)| >= 2
    ensures HasTwoWords(s)
  {
    var a := PrefixRun(s, IsSpace);
    var t := s[a..];
    var n := PrefixRun(t, NotSpace);
    var rest := t[n..];
    assert Split(s) == [t[..n]] + Split(rest);
    SplitEmptyIffBlank(rest);
    var m :| 0 <= m < |rest| && NotSpace(rest[m]);
    assert n < |t| && IsSpace(t[n]);
    assert m > 0;
    assert NotSpace(s[a]) && IsSpace(s[a + n]) && NotSpace(s[a + n + m]);
  }

  lemma SplitFromTwoWords(s: string, i: int, j: int, k: int)
    requires 0 <= i < j < k < |s| && NotSpace(s[i]) && IsSpace(s[j]) && NotSpace(s[k])
    ensures |Split(s)| >= 2
  {
    var a := PrefixRun(s, IsSpace);
    assert i >= a;
    var t := s[a..];
    var n := PrefixRun(t, NotSpace);
    var rest := t[n..];
    assert Split(s) == [t[..n]] + Split(rest);
    assert rest[k - a - n] == s[k];
    SplitEmptyIffBlank(rest);
  }

  /** `" ".join(words)`. */
  function Join(words: seq<string>): string {
    if |words| == 0 then ""
    else if |words| == 1 then words[0]
    else words[0] + " " + Join(words[1..])
  }

  /** Leading whitespace is skipped by `str.split()`. */
  lemma SplitSkipsSpace(c: char, s: string)
    requires IsSpace(c)
    ensures Split([c] + s) == Split(s)
  {
    var w := [c] + s;
    assert w[1..] == s;
    var a := PrefixRun(s, IsSpace);
    assert PrefixRun(w, IsSpace) == 1 + a;
    assert w[1 + a..] == s[a..];
  }

  /** Splitting words joined by single spaces gives the words back: `Split`
      and `Join` are inverse on lists of words. */
  lemma {:induction false} SplitJoin(words: seq<string>)
    requires forall i :: 0 <= i < |words| ==> IsWord(words[i])
    ensures Split(Join(words)) == words
    decreases |words|
  {
    if |words| == 0 {
    } else {
      var w := words[0];
      var rest := if |words| == 1 then "" else " " + Join(words[1..]);
      var s := w + rest;
      assert s == Join(words);
      assert PrefixRun(s, IsSpace) == 0 by {
        assert s[0] == w[0];
      }
      assert s[0..] == s;
      var n := PrefixRun(s, NotSpace);
      assert n == |w| by {
        assert forall i :: 0 <= i < |w| ==> s[i] == w[i];
        assert |s| > |w| ==> s[|w|] == ' ';
      }
      assert s[..n] == w;
      assert s[n..] == rest;
      if |words| > 1 {
        SplitJoin(words[1..]);
        SplitSkipsSpace(' ', Join(words[1..]));
        assert rest == [' '] + Join(words[1..]);
      }
    }
  }
}

=== FILE: schemas.dfy ===
/** The create-request schema: its enums, its defaults and its prompt checks, as
    pydantic applies them to the JSON body of `POST /api/videos`. */
module Schemas {
  import opened Wrappers
  import Py

  /** `SecondsEnum`: clip lengths the API accepts. */
  datatype Seconds = Four | Eight | Twelve {
    function Value(): int {
      match this
      case Four => 4
      case Eight => 8
      case Twelve => 12
    }
  }

  /** `SizeEnum`: the resolution presets. */
  datatype Size = Square480 | Portrait720 | Portrait1080 | Landscape1080 | Landscape1440 {
    function Value(): string {
      match this
      case Square480 => "480x480"
      case Portrait720 => "720x1280"
      case Portrait1080 => "1080x1920"
      case Landscape1080 => "1920x1080"
      case Landscape1440 => "2560x1440"
    }
  }

  /** Enum lookup by value, `SecondsEnum(n)`. */
  function SecondsOf(n: int): (r: Option<Seconds>)
    ensures r.Some? <==> n in {4, 8, 12}
    ensures r.Some? ==> r.value.Value() == n
  {
    if n == 4 then Some(Four)
    else if n == 8 then Some(Eight)
    else if n == 12 then Some(Twelve)
    else None
  }

  /** Enum lookup by value, `SizeEnum(s)`. */
  function SizeOf(s: string): (r: Option<Size>)
    ensures r.Some? <==> s in {"480x480", "720x1280", "1080x1920", "1920x1080", "2560x1440"}
    ensures r.Some? ==> r.value.Value() == s
  {
    if s == "480x480" then Some(Square480)
    else if s == "720x1280" then Some(Portrait720)
    else if s == "1080x1920" then Some(Portrait1080)
    else if s == "1920x1080" then Some(Landscape1080)
    else if s == "2560x1440" then Some(Landscape1440)
    else None
  }

  /** Value lookup inverts the enum: every member is found by its own value. */
  lemma EnumValuesRoundTrip(n: Seconds, z: Size)
    ensures SecondsOf(n.Value()) == Some(n)
    ensures SizeOf(z.Value()) == Some(z)
  {
  }

  const MinPromptLength := 4
  const DefaultSeconds := Eight
  const DefaultSize := Landscape1080
  const DefaultUserId := "demo-user"

  /** The JSON body as received: each field may be missing, `null`, or given. */
  datatype RawCreateRequest = RawCreateRequest(
    prompt: Slot<string>,
    seconds: Slot<int>,
    size: Slot<string>,
    userId: Slot<string>)

  /** `CreateVideoRequest` after validation. `user_id` is `Optional[str]`, so an
      explicit `null` survives validation as `None`. */
  datatype CreateVideoRequest = CreateVideoRequest(
    prompt: string,
    seconds: Seconds,
    size: Size,
    userId: Option<string>)

  /** Why a field was rejected. */
  datatype Problem =
    | FieldRequired   // the key is missing and the field has no default
    | NoneNotAllowed  // `null` for a field that is not `Optional`
    | TooShort        // fewer than `min_length` characters
    | TooFewWords     // `prompt_must_have_words` raised
    | NotAMember      // not one of the enum's values

  datatype FieldError = FieldError(field: string, problem: Problem)

  /** `prompt_must_have_words`: at least two whitespace-separated words; the
      value is returned unchanged. */
  function PromptMustHaveWords(value: string): (r: Result<string, Problem>)
    ensures r.Ok? <==> Py.HasTwoWords(value)
    ensures r.Ok? ==> r.value == value
    ensures r.Err? ==> r.error == TooFewWords
  {
    Py.SplitTwoWords(value);
    if |Py.Split(value)| < 2 then Err(TooFewWords) else Ok(value)
  }

  /** The `prompt` field: required, not null, `min_length=4`, then the word
      validator (which pydantic only runs once the length check passed). */
  function ValidatePrompt(v: Slot<string>): (r: Result<string, Problem>)
    ensures r.Ok? <==> v.Given? && |v.value| >= MinPromptLength && Py.HasTwoWords(v.value)
    ensures r.Ok? ==> r.value == v.value
    ensures v.Given? && |v.value| < MinPromptLength ==> r == Err(TooShort)
  {
    match v
    case Missing => Err(FieldRequired)
    case Null => Err(NoneNotAllowed)
    case Given(p) =>
      if |p| < MinPromptLength then Err(TooShort) else PromptMustHaveWords(p)
  }

  /** The `seconds` field: defaults to 8, otherwise one of 4, 8, 12. */
  function ValidateSeconds(v: Slot<int>): (r: Result<Seconds, Problem>)
    ensures v.Missing? ==> r == Ok(Eight)
    ensures v.Given? ==> (r.Ok? <==> v.value in {4, 8, 12})
    ensures v.Given? && r.Ok? ==> r.value.Value() == v.value
    ensures v.Null? ==> r.Err?
  {
    match v
    case Missing => Ok(DefaultSeconds)
    case Null => Err(NoneNotAllowed)
    case Given(n) =>
      match SecondsOf(n)
      case Some(s) => Ok(s)
      case None => Err(NotAMember)
  }

  /** The `size` field: defaults to `"1920x1080"`, otherwise one of the presets. */
  function ValidateSize(v: Slot<string>): (r: Result<Size, Problem>)
    ensures v.Missing? ==> r.Ok? && r.value.Value() == "1920x1080"
    ensures v.Given? ==> (r.Ok? <==> SizeOf(v.value).Some?)
    ensures v.Given? && r.Ok? ==> r.value.Value() == v.value
    ensures v.Null? ==> r.Err?
  {
    match v
    case Missing => Ok(DefaultSize)
    case Null => Err(NoneNotAllowed)
    case Given(s) =>
      match SizeOf(s)
      case Some(z) => Ok(z)
      case None => Err(NotAMember)
  }

  /** The `user_id` field: `Optional[str]` defaulting to `"demo-user"`. */
  function ValidateUserId(v: Slot<string>): (r: Option<string>)
    ensures v.Missing? ==> r == Some(DefaultUserId)
    ensures v.Null? ==> r.None?
    ensures v.Given? ==> r == Some(v.value)
  {
    match v
    case Missing => Some(DefaultUserId)
    case Null => None
    case Given(u) => Some(u)
  }

  /** The error a field contributes, if any. */
  function ErrorOf<T>(field: string, r: Result<T, Problem>): seq<FieldError> {
    if r.Err? then [FieldError(field, r.error)] else []
  }

  /** Validates the whole body. Pydantic checks every field and reports all
      failures together, in declaration order. */
  function Validate(raw: RawCreateRequest): (r: Result<CreateVideoRequest, seq<FieldError>>)
    ensures r.Ok? <==> ValidatePrompt(raw.prompt).Ok? && ValidateSeconds(raw.seconds).Ok?
                       && ValidateSize(raw.size).Ok?
    ensures r.Ok? ==> r.value.prompt == raw.prompt.value
    ensures r.Ok? ==> |r.value.prompt| >= MinPromptLength && Py.HasTwoWords(r.value.prompt)
    ensures r.Ok? ==> r.value.seconds == ValidateSeconds(raw.seconds).value
    ensures r.Ok? ==> r.value.size == ValidateSize(raw.size).value
    ensures r.Ok? ==> r.value.userId == ValidateUserId(raw.userId)
    ensures r.Err? ==> |r.error| > 0
    ensures r.Err? ==> (forall e :: e in r.error ==> e.field in {"prompt", "seconds", "size"})
    ensures r.Err? ==> (FieldError("prompt", TooShort) in r.error <==>
                          raw.prompt.Given? && |raw.prompt.value| < MinPromptLength)
  {
    var p := ValidatePrompt(raw.prompt);
    var n := ValidateSeconds(raw.seconds);
    var z := ValidateSize(raw.size);
    if p.Ok? && n.Ok? && z.Ok? then
      Ok(CreateVideoRequest(p.value, n.value, z.value, ValidateUserId(raw.userId)))
    else
      Err(ErrorOf("prompt", p) + ErrorOf("seconds", n) + ErrorOf("size", z))
  }

  /** A field left out of the body takes its declared default. */
  lemma DefaultsApply(prompt: string)
    requires |prompt| >= MinPromptLength && Py.HasTwoWords(prompt)
    ensures Validate(RawCreateRequest(Given(prompt), Missing, Missing, Missing))
            == Ok(CreateVideoRequest(prompt, Eight, Landscape1080, Some("demo-user")))
  {
  }
}

=== FILE: sizes.dfy ===
/** The resolution presets of the Videos API and the normaliser that maps a
    user's size or aspect-ratio preference onto one of them. */
module Sizes {
  import opened Wrappers
  import Py
  import Schemas

  const OfficialSizes: set<string> := {"480x480", "720x1280", "1080x1920", "1920x1080", "2560x1440"}

  /** Aspect-ratio names and their preset. */
  const Presets: map<string, string> := map[
    "1:1" := "480x480",
    "square" := "480x480",
    "9:16" := "1080x1920",
    "portrait" := "1080x1920",
    "vertical" := "1080x1920",
    "16:9" := "1920x1080",
    "landscape" := "1920x1080",
    "4:3" := "1920x1080"]

  /** `aspect_ratio_to_resolution`: the trimmed preference when it is an
      official size, else its preset when it names one, else `None`. */
  function AspectRatioToResolution(preference: Option<string>): (r: Option<string>)
    ensures preference.None? ==> r.None?
    ensures r.Some? ==> r.value in OfficialSizes
    ensures preference.Some? ==>
              (r.Some? <==> Py.Strip(preference.value) in OfficialSizes || Py.Strip(preference.value) in Presets)
    ensures preference.Some? && Py.Strip(preference.value) in OfficialSizes ==> r == Some(Py.Strip(preference.value))
    ensures preference.Some? && Py.Strip(preference.value) !in OfficialSizes && Py.Strip(preference.value) in Presets ==>
              r == Some(Presets[Py.Strip(preference.value)])
  {
    match preference
    case None => None
    case Some(p) =>
      var value := Py.Strip(p);
      if value in OfficialSizes then Some(value)
      else if value in Presets && Presets[value] in OfficialSizes then Some(Presets[value])
      else None
  }

  /** An official size is its own resolution. */
  lemma OfficialSizeIsFixed(size: string)
    requires size in OfficialSizes
    ensures AspectRatioToResolution(Some(size)) == Some(size)
  {
    Py.StripTrimmed(size);
  }

  /** Normalising a normalised size changes nothing. */
  lemma AspectRatioToResolutionIdempotent(preference: Option<string>)
    ensures AspectRatioToResolution(AspectRatioToResolution(preference)) == AspectRatioToResolution(preference)
  {
    var r := AspectRatioToResolution(preference);
    if r.Some? {
      OfficialSizeIsFixed(r.value);
    }
  }

  /** Whitespace around a preference is ignored. */
  lemma PaddingIgnored(pre: string, preference: string, post: string)
    requires forall i :: 0 <= i < |pre| ==> Py.IsSpace(pre[i])
    requires forall i :: 0 <= i < |post| ==> Py.IsSpace(post[i])
    requires preference in OfficialSizes || preference in Presets
    ensures AspectRatioToResolution(Some(pre + preference + post)) == AspectRatioToResolution(Some(preference))
  {
    var v := preference;
    assert |v| > 0 && Py.NotSpace(v[0]) && Py.NotSpace(v[|v| - 1]) by {
      if v in OfficialSizes {
        assert v == "480x480" || v == "720x1280" || v == "1080x1920" || v == "1920x1080" || v == "2560x1440";
      } else {
        assert v == "1:1" || v == "square" || v == "9:16" || v == "portrait" || v == "vertical"
            || v == "16:9" || v == "landscape" || v == "4:3";
      }
    }
    Py.StripIgnoresPadding(pre, v, post);
    Py.StripTrimmed(v);
  }

  /** The `SizeEnum` values are exactly the official sizes. */
  lemma OfficialIffSizeEnum(s: string)
    ensures s in OfficialSizes <==> Schemas.SizeOf(s).Some?
  {
  }

  /** Every `SizeEnum` value is official, so normalising the size of a
      validated request gives that size back. */
  lemma SizeEnumIsOfficial(z: Schemas.Size)
    ensures z.Value() in OfficialSizes
    ensures AspectRatioToResolution(Some(z.Value())) == Some(z.Value())
  {
    var v := z.Value();
    assert v in OfficialSizes by {
      match z
      case Square480 =>
      case Portrait720 =>
      case Portrait1080 =>
      case Landscape1080 =>
      case Landscape1440 =>
    }
    OfficialSizeIsFixed(v);
  }
}

=== FILE: wrappers.dfy ===
/** Option, Result and Slot: the shapes that absence and failure take in the model. */
module Wrappers {

  /** Python's `Optional`: `None` or a present value. */
  datatype Option<+T> = None | Some(value: T) {

    /** The value, or `default` when absent. */
    function GetOr(default: T): T {
      match this
      case Some(v) => v
      case None => default
    }
  }

  /** A successful value or the error the source raises instead. */
  datatype Result<+T, +E> = Ok(value: T) | Err(error: E)

  /** How a key can stand in a JSON object. `obj.get(k)` cannot tell `Missing`
      from `Null`; `obj.get(k, default)` and `obj[k]` can. For a key whose value
      is itself used as an object, `Null` also stands for any value that has no
      `.get` (a string, a number, a list). */
  datatype Slot<+T> = Missing | Null | Given(value: T) {

    /** What `obj.get(k)` returns: `None` for a missing key and for `null`. */
    function Get(): Option<T> {
      match this
      case Given(v) => Some(v)
      case _ => None
    }
  }
}
